=== FILE: README.md ===
# CG_HW3 viewer core in Dafny

A model of the core of a small OpenGL/GLUT viewer for textured OBJ models:

- **OBJ loading** (`TriangleMesh::LoadFromFile`). The object name is cut from the
  model directory. The lines of `<dir>/<name>.obj` are read one after the other:
  - `v`, `vt` and `vn` append to the attribute lists;
  - `mtllib` loads a material file;
  - `usemtl` closes the current submesh and opens a new one bound to a material;
  - `f` resolves every face token to a deduplicated vertex id and fans the face
    into triangles of the open submesh.
- **MTL loading** (`TriangleMesh::LoadMtlFile`). Every `newmtl` takes the next
  five lines as its block, and the built material is stored under its name.
  The last definition wins.
- **The lights of `light.h`**:
  - the point light and its four moves;
  - the spot light's constructor and its angle getters;
  - the directional light.
- **The viewer's command handling (`CG_HW3.cpp`)**. All globals form one `Scene`
  record:
  - the special-key callback: polygon mode, lighting mode, point-light moves;
  - the reshape callback: the window size and the camera's projection;
  - the keyboard callback: exit, spot-light moves, skybox rotation;
  - the direction, model and skybox menus;
  - `ReleaseResources`;
  - the order of `SetupScene` and of start-up;
  - a whole session of events, with the invariant it keeps between events.

How the model represents the system:

- Floats are reals and files are pre-tokenised lines. The file system is a
  parameter: a map from paths to lines, for OBJ and MTL files.
- Heap objects carry the number of the `new` that made them. This is how the
  model states aliasing (the scene object's mesh pointer, the two light
  visualisations) and creation order.
- `exit(code)` becomes a status of the scene.
- The shader files that load are a parameter (a set of file names).

## Model

| member | source | states |
|---|---|---|
| Paths.SplitSlash | CG_HW3/trianglemesh.cpp:30-35 | the empty path yields no piece, and any other path at least one |
| Paths.SplitJoin | CG_HW3/trianglemesh.cpp:30-35 | splitting at '/' loses nothing but a trailing '/': joining the pieces with '/' gives the path back without it |
| Paths.SplitNoSlash | CG_HW3/trianglemesh.cpp:30-35 | no piece contains a '/' |
| Paths.LastPiece | CG_HW3/trianglemesh.cpp:33-36 | the last piece is the text after the last '/' of the path (a trailing '/' dropped); it is the whole path exactly when the path is one piece |
| Paths.ObjectName | CG_HW3/trianglemesh.cpp:36 | the object name holds no '/' and is the last segment of the model directory |
| Paths.ObjPath | CG_HW3/trianglemesh.cpp:54 | the model file opened is `<dir>/<name>.obj`: the directory, a '/', a slash-free name that is the directory's last segment, and `.obj` |
| Materials.BuildMaterial | CG_HW3/trianglemesh.cpp:235-237 | a block's material carries the name on its `newmtl` line |
| Materials.ApplyLine | CG_HW3/trianglemesh.cpp:245-272 | one block line sets the field its head names to the line's value (`map_Kd` as `folder/file`) and keeps the name and every other field |
| Materials.BuildMaterialDefault | CG_HW3/trianglemesh.cpp:236-273 | a field that no line of the block sets keeps the default material's value |
| Materials.BuildMaterialLast | CG_HW3/trianglemesh.cpp:240-273 | a field takes its value from the last line of the block that sets it |
| Materials.Blocks | CG_HW3/trianglemesh.cpp:226-279 | a `newmtl` consumes at most five following lines, and a file has no more blocks than lines |
| Materials.BlocksWindow | CG_HW3/trianglemesh.cpp:228-272 | a `newmtl` line takes the next five lines as its window whatever they hold, another `newmtl` included, and the scan resumes after them |
| Materials.BlocksShortWindow | CG_HW3/trianglemesh.cpp:240-242 | a `newmtl` with fewer than five lines after it takes them all (the end-of-file reading under "Left out") |
| Materials.BlocksSkip | CG_HW3/trianglemesh.cpp:226-230 | outside a window, a line that is not `newmtl` is passed over |
| Materials.NestedNewMtlSwallowed | CG_HW3/trianglemesh.cpp:226-279 | in `newmtl a` directly followed by `newmtl b`, the second line is swallowed by the first window: only `a` is defined, with default fields |
| Materials.BlocksOfStandardLayout | CG_HW3/trianglemesh.cpp:226-279 | when every `newmtl` is followed by five lines that are not `newmtl`, the blocks are exactly the `newmtl` lines, in order, each with five lines |
| Materials.Define | CG_HW3/trianglemesh.cpp:276 | storing the blocks adds exactly their names to the material map's keys |
| Materials.DefineKeeps | CG_HW3/trianglemesh.cpp:276 | a name no block defines keeps its material |
| Materials.DefineLastWins | CG_HW3/trianglemesh.cpp:276 | a name maps to the material of its last block |
| Materials.LoadMtlFile | CG_HW3/trianglemesh.cpp:217-288 | true exactly when the file opens; a file that does not open leaves the map as it was, and one that opens adds exactly its block names |
| Materials.LoadMtlFileLastWins | CG_HW3/trianglemesh.cpp:226-279 | after loading, a block's name maps to what its last block builds |
| Materials.LoadMtlFileKeeps | CG_HW3/trianglemesh.cpp:217-288 | a name the file does not define, or any name when the file does not open, keeps its material |
| TriangleMesh.LookupOrAdd | CG_HW3/trianglemesh.cpp:138-147 | a text whose stored id is not 0 gets that id and leaves the table alone; otherwise it gets a fresh id and one more vertex; the table stays consistent and the id is in range |
| TriangleMesh.VertexOf | CG_HW3/trianglemesh.cpp:131-136 | a token's vertex takes the position at its first index, the texture coordinate at its second and the normal at its third |
| TriangleMesh.CollectPrefix | CG_HW3/trianglemesh.cpp:68-101 | later lines only append to the position, texture-coordinate and normal lists, so what a face reads stays there unchanged |
| TriangleMesh.Resolve | CG_HW3/trianglemesh.cpp:125-147 | one id per token, every id below the vertex count, and the table only grows |
| TriangleMesh.ResolveKeepsVertices | CG_HW3/trianglemesh.cpp:142-146 | vertices already stored are never rewritten; new ones go at the end |
| TriangleMesh.Fan | CG_HW3/trianglemesh.cpp:149-164 | a face of n tokens pushes 3(n-2) indices when n >= 3, and none otherwise |
| TriangleMesh.FanMembers | CG_HW3/trianglemesh.cpp:149-164 | every pushed index is the id of one of the face's tokens |
| TriangleMesh.FanBounded | CG_HW3/trianglemesh.cpp:149-164 | ids below a bound give pushed indices below that bound |
| TriangleMesh.FanShape | CG_HW3/trianglemesh.cpp:149-164 | the k-th triangle of a face is (token 1, token k+1, token k+2) |
| TriangleMesh.AddFace | CG_HW3/trianglemesh.cpp:120-166 | a face adds n-2 triangles to the count and 3(n-2) indices to the open submesh, changes no other submesh, the material map or the attributes, and keeps the loader invariant |
| TriangleMesh.TakeTokenAgrees | CG_HW3/trianglemesh.cpp:149-164 | one pass of the token loop keeps the cursor in agreement with resolving the tokens so far and pushing their fan |
| TriangleMesh.AddFaceLoop | CG_HW3/trianglemesh.cpp:120-166 | the token loop with its counter, first and last index computes the same loader as resolving the face and pushing its fan |
| TriangleMesh.PushOpen | CG_HW3/trianglemesh.cpp:170-173 | pushing the open submesh adds its indices to the total |
| TriangleMesh.Finish | CG_HW3/trianglemesh.cpp:170-173 | after the last line the open submesh, if any, is pushed behind the closed ones, and a loader that kept its invariant gives a valid mesh |
| TriangleMesh.EnsureMaterial | CG_HW3/trianglemesh.cpp:116 | `materialMap[name]` makes the name a key, adding a default material only when it was missing |
| TriangleMesh.MtlLibStep | CG_HW3/trianglemesh.cpp:103-106 | `mtllib` changes only the material map, only adds keys to it, and keeps the loader invariant |
| TriangleMesh.UseMtlStep | CG_HW3/trianglemesh.cpp:107-119 | `usemtl` opens an empty submesh for the name, keeps earlier submeshes as a prefix, and keeps the loader invariant |
| TriangleMesh.UseMtlInvariant | CG_HW3/trianglemesh.cpp:107-119 | the closed submesh stays whole triangles of existing vertices with a known material, and the new one is empty |
| TriangleMesh.PushOpenOk | CG_HW3/trianglemesh.cpp:109-111 | pushing the open submesh keeps every submesh whole triangles of existing vertices, also under a larger material map |
| TriangleMesh.Step | CG_HW3/trianglemesh.cpp:61-167 | one line grows the attributes as its head says, opens a submesh only on `usemtl`, only grows counts, submeshes and materials, and keeps the loader invariant |
| TriangleMesh.Initial | CG_HW3/trianglemesh.cpp:4-11 | the freshly constructed mesh satisfies the loader invariant |
| TriangleMesh.Run | CG_HW3/trianglemesh.cpp:61-168 | after any prefix of the file the attributes are that prefix's `v`/`vt`/`vn` lines, a submesh is open exactly when a `usemtl` was seen, and the invariant holds |
| TriangleMesh.LoadFromFile | CG_HW3/trianglemesh.cpp:27-215 | always returns true; a model file that does not open leaves the mesh empty; a loaded mesh has one vertex per id, indices in range, whole triangles, known materials and a triangle count of a third of the indices |
| MeshProperties.StepGroups | CG_HW3/trianglemesh.cpp:107-166 | one line changes the (material, index count) list of submeshes exactly as the line alone says |
| MeshProperties.FaceGroups | CG_HW3/trianglemesh.cpp:120-166 | a face grows only the last submesh, by three indices per triangle |
| MeshProperties.RunGroups | CG_HW3/trianglemesh.cpp:61-173 | after any prefix of the file the submeshes, with the open one pushed, are the groups that prefix describes |
| MeshProperties.GroupsFollowUseMtl | CG_HW3/trianglemesh.cpp:107-119 | the groups are one per `usemtl` line, in file order, bound to its material, each of whole triangles |
| MeshProperties.LoadedSubMeshes | CG_HW3/trianglemesh.cpp:107-173 | the loaded mesh has one submesh per `usemtl` line, in order, bound to that name, which is a key of the material map, holding as many indices as the faces after that line yield (which indices a face appends is AddFaceFan) |
| MeshProperties.StepTriangles | CG_HW3/trianglemesh.cpp:149-164 | only a face adds triangles, n-2 of them for n >= 3 tokens |
| MeshProperties.RunTriangles | CG_HW3/trianglemesh.cpp:61-168 | the triangle count after a prefix of the file is the sum over its faces |
| MeshProperties.LoadedTriangles | CG_HW3/trianglemesh.cpp:149-173 | the loaded triangle count is the sum over the faces and a third of all submesh indices |
| MeshProperties.AddFaceFan | CG_HW3/trianglemesh.cpp:149-164 | a face of n >= 3 tokens keeps the submesh's earlier indices and appends n-2 triangles, the k-th joining tokens 1, k+1 and k+2 |
| MeshProperties.AddFaceShort | CG_HW3/trianglemesh.cpp:149-157 | a face of fewer than three tokens pushes no index and adds no triangle |
| MeshProperties.SlotsStep | CG_HW3/trianglemesh.cpp:138-147 | a stored non-zero id changes nothing; the text stored with id 0 is added again under a fresh id; a new text gets a fresh id |
| MeshProperties.LookupOrAddCount | CG_HW3/trianglemesh.cpp:138-147 | the table after a sequence of texts has one key per distinct text and one vertex per distinct text, plus one when the first text repeats |
| MeshProperties.ResolveCount | CG_HW3/trianglemesh.cpp:125-147 | the same count holds across all tokens of a face |
| MeshProperties.StepCount | CG_HW3/trianglemesh.cpp:120-166 | the same count holds across one line, which adds its face tokens' texts |
| MeshProperties.RunCount | CG_HW3/trianglemesh.cpp:61-168 | the same count holds across all face tokens of a file prefix |
| MeshProperties.LoadedVertices | CG_HW3/trianglemesh.cpp:138-147 | the loaded vertex count is the number of distinct face token texts, plus one when the file's first token text occurs again |
| MeshProperties.FirstTokenReadded | CG_HW3/trianglemesh.cpp:138-147 | for a first face `f t t t`, the ids are 0, 1, 1 and two vertices are stored for one text |
| Lights.MovePoint | CG_HW3/light.h:44-47 | a move shifts the position by a tenth of the speed along x (left/right) or y (up/down), and keeps the intensity |
| Lights.MoveUndone | CG_HW3/light.h:44-47 | a move followed by the opposite move at the same speed restores the light |
| Lights.NewSpotLight | CG_HW3/light.h:80-87 | the constructor keeps position, intensity and direction, and stores its fourth argument as the fall-off start and its fifth as the total width |
| Lights.MovesAdd | CG_HW3/light.h:44-47 | two moves the same way equal one move at the summed speed |
| Lights.MovesCommute | CG_HW3/light.h:44-47 | moves commute |
| Lights.DefaultSpotLightAngles | CG_HW3/light.h:72-79 | the default spot light starts its fall-off at 30 degrees inside a 45-degree cone |
| Lights.MoveSpot | CG_HW3/light.h:68-91 | a spot light moves as its point light, and its direction and angles stay |
| Lights.SetDirection | CG_HW3/light.h:119 | the direction is replaced and the radiance kept |
| Viewer.ReleaseResources | CG_HW3/CG_HW3.cpp:96-135 | mesh, lights, camera and shaders become null; the skybox and the scene objects' pointers are untouched, and so are the modes and paths |
| Viewer.ReleaseIdempotent | CG_HW3/CG_HW3.cpp:96-135 | releasing twice is releasing once, and a scene is unchanged by it exactly when already released |
| Viewer.InitialScene | CG_HW3/CG_HW3.cpp:10-51 | before `main` every pointer is null, the window is 600 by 600, the lighting mode is 0 and the paths are the last model and the first skybox texture |
| Viewer.LoadObjects | CG_HW3/CG_HW3.cpp:359-366 | a new mesh, the one `LoadFromFile` gives for the model path, valid, and pointed to by the scene object; nothing else changes |
| Viewer.CreateLights | CG_HW3/CG_HW3.cpp:368-381 | directional, point and spot light are created in that order, each exactly from the initial direction, radiance, positions, intensities and angles; the visualisations point to the new point and spot lights |
| Viewer.AspectRatio | CG_HW3/CG_HW3.cpp:265 | the aspect ratio is the width over the height, and there is none for a zero height |
| Viewer.CreateCamera | CG_HW3/CG_HW3.cpp:383-390 | a new camera with the initial view and clipping planes and the aspect ratio of the window's current size |
| Viewer.CreateShaderLib | CG_HW3/CG_HW3.cpp:400-413 | the three programs are created in order when all load; otherwise the process exits with code 1 |
| Viewer.LightsAndCamera | CG_HW3/CG_HW3.cpp:573-574 | lights then camera, in creation order, each light with its initial values, the camera with the window's aspect ratio, and the visualisations bound to the new lights |
| Viewer.SetupScene | CG_HW3/CG_HW3.cpp:571-576 | mesh, lights, camera and shaders are created in that order; the mesh is the one loaded from the path, the lights have their initial values, the camera the window's aspect ratio; the scene is fully live when the shaders load and exits with 1 otherwise; skybox, modes, window and paths are kept |
| Viewer.CreateSkybox | CG_HW3/CG_HW3.cpp:392-398 | a new, unturned skybox for the texture |
| Viewer.Startup | CG_HW3/CG_HW3.cpp:597-600 | the process runs exactly when the shaders load, and then every object and the default skybox exist; the mesh is the default model's and the aspect ratio is 1 |
| Viewer.Reshape | CG_HW3/CG_HW3.cpp:258-267 | a resize records the new width and height and gives the same camera their aspect ratio; nothing else changes |
| Viewer.ReshapeLastWins | CG_HW3/CG_HW3.cpp:258-267 | of two resizes only the last one matters |
| Viewer.RebuildKeepsProjection | CG_HW3/CG_HW3.cpp:383-390 | a model chosen after a resize gets a camera with the resized window's aspect ratio |
| Viewer.CRem | CG_HW3/CG_HW3.cpp:288-289 | C's remainder takes the sign of its left operand and is smaller in size than the divisor |
| Viewer.CRemFour | CG_HW3/CG_HW3.cpp:288-289 | C's remainder by four is congruent to its argument and agrees with the mathematical one on non-negative arguments |
| Viewer.SpecialKeyOf | CG_HW3/CG_HW3.cpp:269-311 | the codes of F1 to F4 and the four arrows name their keys; every other code is a key the callback does not handle, carrying that code |
| Viewer.SpecialKeyCodes | CG_HW3/CG_HW3.cpp:269-311 | decoding a code and taking the key's code back gives the code, and every handled key decodes back from its code |
| Viewer.MovePointLight | CG_HW3/CG_HW3.cpp:293-308 | the point light, when present, moves at the light-move speed; nothing else changes |
| Viewer.MovePointLightUndone | CG_HW3/CG_HW3.cpp:293-308 | the opposite move restores the scene |
| Viewer.ProcessSpecialKey | CG_HW3/CG_HW3.cpp:269-312 | a special key changes only the polygon mode, the lighting mode or the point light, and keeps the lighting mode one of the four |
| Viewer.PolygonModeKeys | CG_HW3/CG_HW3.cpp:274-285 | F1, F2 and F3 select point, line and fill mode and change nothing else |
| Viewer.LightingModeKey | CG_HW3/CG_HW3.cpp:286-290 | F4 advances the lighting mode, 3 wraps to 0, and a negative mode stays at or below zero |
| Viewer.FourPressesCycle | CG_HW3/CG_HW3.cpp:286-290 | four presses of F4 return to the starting mode through three other in-range modes |
| Viewer.ArrowKeys | CG_HW3/CG_HW3.cpp:293-308 | the arrows change only the point light, keep its identity and intensity, and do nothing without one |
| Viewer.ArrowMoves | CG_HW3/CG_HW3.cpp:293-308 | each arrow moves the point light 0.02 along x or y |
| Viewer.ArrowsUndo | CG_HW3/CG_HW3.cpp:293-308 | left then right, and up then down, leave the scene as it was |
| Viewer.OtherSpecialKeys | CG_HW3/CG_HW3.cpp:309-310 | a code other than those of F1 to F4 and the arrows does nothing |
| Viewer.MoveSpotLight | CG_HW3/CG_HW3.cpp:323-332 | the spot light, when present, moves at the light-move speed; nothing else changes |
| Viewer.MoveSpotLightUndone | CG_HW3/CG_HW3.cpp:323-332 | the opposite move restores the scene |
| Viewer.RotateSkybox | CG_HW3/CG_HW3.cpp:335-343 | the skybox, when present, records one more turn and keeps its texture |
| Viewer.ProcessKey | CG_HW3/CG_HW3.cpp:314-344 | Esc releases everything and exits with code 0; any other key changes only the spot light and the skybox |
| Viewer.SpotLightKeys | CG_HW3/CG_HW3.cpp:323-332 | a, d, w and s change only the spot light, keep its identity, direction and angles, and do nothing without one |
| Viewer.SpotKeysUndo | CG_HW3/CG_HW3.cpp:323-332 | a then d, and w then s, leave the scene as it was |
| Viewer.SkyboxKeys | CG_HW3/CG_HW3.cpp:335-343 | z and c ask the skybox to turn left and right at the rotation speed and change nothing else |
| Viewer.OtherKeys | CG_HW3/CG_HW3.cpp:314-344 | any other key does nothing |
| Viewer.PresetsOpposite | CG_HW3/CG_HW3.cpp:467-501 | the eight horizontal presets are non-zero and entry i+4 points opposite to entry i; 9 and 10 are straight up and down |
| Viewer.DirectionMenu | CG_HW3/CG_HW3.cpp:467-501 | entry i from 1 to 10 sets the direction of the same directional light to the i-th preset, keeping its radiance; any other index does nothing |
| Viewer.DirectionMenuLastWins | CG_HW3/CG_HW3.cpp:467-501 | of two direction choices only the last one matters |
| Viewer.SelectedModelPath | CG_HW3/CG_HW3.cpp:421-459 | entries 1 to 9 select their model; any other index keeps the current path |
| Viewer.PathMenu | CG_HW3/CG_HW3.cpp:416-464 | the scene is rebuilt with objects newer than any before, created as mesh, directional, point and spot light, camera, then shaders: the mesh is the one loaded from the selected model, the three lights are exactly the initial ones, the aliases point to the new mesh and lights, and the camera has the window's aspect ratio; skybox, modes, window and sky path survive |
| Viewer.PathMenuAfterRelease | CG_HW3/CG_HW3.cpp:416-464 | what the model menu builds does not depend on whether resources were already released |
| Viewer.PathMenuForgetsMoves | CG_HW3/CG_HW3.cpp:416-464 | light moves before a model choice have no effect on the scene it builds |
| Viewer.SelectedSkyPath | CG_HW3/CG_HW3.cpp:510-520 | entries 1 to 3 select their texture; any other index keeps the current one |
| Viewer.SkyboxPathMenu | CG_HW3/CG_HW3.cpp:504-522 | a new, unturned skybox from the selected texture, whatever the index; nothing else changes |
| Viewer.SkyboxMenuResets | CG_HW3/CG_HW3.cpp:504-522 | an index outside the menu rebuilds the same texture but drops the turns |
| Viewer.StartupInv | CG_HW3/CG_HW3.cpp:597-600 | the start-up scene satisfies the session invariant |
| Viewer.SpecialKeyInv | CG_HW3/CG_HW3.cpp:269-312 | the special-key callback keeps the session invariant |
| Viewer.ReshapeInv | CG_HW3/CG_HW3.cpp:258-267 | a resize keeps the session invariant, the camera's aspect ratio matching the window |
| Viewer.KeyInv | CG_HW3/CG_HW3.cpp:314-344 | the keyboard callback keeps the session invariant |
| Viewer.DirectionInv | CG_HW3/CG_HW3.cpp:467-501 | the direction menu keeps the session invariant |
| Viewer.PathMenuInv | CG_HW3/CG_HW3.cpp:416-464 | the model menu keeps the session invariant |
| Viewer.SkyboxMenuInv | CG_HW3/CG_HW3.cpp:504-522 | the skybox menu keeps the session invariant |
| Viewer.Apply | CG_HW3/CG_HW3.cpp:258-522 | every callback keeps the invariant: lighting mode in range, model a menu entry, aliases pointing at the live objects, a valid mesh, a projection matching the window, everything live while running; after exit nothing happens |
| Viewer.RunSession | CG_HW3/CG_HW3.cpp:258-522 | any sequence of events keeps the session invariant |

## Left out

- The `normalized` branch (lines 181-210 of `trianglemesh.cpp`): centring and scaling by the bounding box is floating-point geometry, and the bounding box is not tracked.
- Stream parsing is not modelled. Lines arrive already split into their head and arguments, and face tokens arrive as text plus the three indices read from it. The model assumes the indices agree with the text.
- Materials.Blocks: a window near the end of the file is modelled as the lines that remain. The source instead runs all five reads. When the file ends in a newline, the first read past the end yields an empty line, and the previous `head` is applied again with a failed read: a trailing `map_Kd` sets the texture to `folder/`, and a trailing `Ns`, `Ka`, `Kd` or `Ks` stores an unspecified value. When the last line has no newline, the read past the end leaves `line` as it was, and that last line is applied again.
- Materials.BlocksSkip: a blank or all-space line outside a window is passed over, but in the source it is not always. `head` is declared outside the loop (trianglemesh.cpp:223), and `ss >> head` (line 228) fails on such a line and keeps the last head read. When that head was `newmtl`, the line starts a block with the empty name `""` over the next five lines. This happens after a window whose fifth line is a `newmtl`, or after a `newmtl` followed by five blank lines. `MtlLine` has no blank line, so the model never defines `""` that way.
- Materials.ApplyLine: a blank line inside a window carries the previous line's `head` over in the same way, and that is not modelled either. The model treats a blank line as setting nothing.
- Lights.SetDirection: `glm::normalize` is not modelled, so the direction is stored as given.
- Viewer.CreateLights: the directional light likewise stores `(0, 0, -1)` without normalising it, and the visualisation colours (`glm::normalize` of the intensity) are left out.
- `GetCosTotalWidthDegree`, `GetCosFallofStartDegree` and `Draw` are left out: they are cosines and GL drawing.
- `RenderSceneCB`, `SetupRenderState` and the menu creation functions are left out: they are GL/GLUT calls with no state the model keeps. Of `ReshapeCB`, only the `glViewport` call is left out.
- Viewer.AspectRatio: the float division's rounding is not modelled, and neither are the infinity and the NaN of a zero height. Both are represented as no aspect ratio.
- Viewer.SpecialKeyOf: the `GLUT_KEY_*` values come from GLUT's header, which is not part of this model.
- The default constructors `PointLight()` (light.h:20-24) and `DirectionalLight()` (light.h:108-111) are not modelled, because the viewer never calls them. `SpotLight()` is modelled because its defaults are stated about.
- Console output is left out.
- The internals of `Camera`, `Skybox`, the shader programs and `ImageTexture` are not part of this model. A skybox rotation is recorded as a request, and a shader program as the two files it loads.
- `PhongMaterial`'s default constructor is not part of this model. A default material is taken to have zero coefficients, no texture and an empty name.
- `headers.h` is not part of this model.
- A failed GLEW initialisation in `main` is left out.
- Memory leaks (the old `SubMesh` objects, the skybox pointer after exit) and dangling pointers are visible only as allocation numbers.
- Lights.MovePoint: the zero components of `moveSpeed * vec3(...)` are written as zeros, which float arithmetic gives as well.
- Paths.ObjectName and TriangleMesh.LoadFromFile require a non-empty path, because on an empty path the source reads past its vector of pieces.
- TriangleMesh.Step: a line of only spaces or tabs passes the `line.empty()` test (trianglemesh.cpp:62). It keeps the previous `head` (line 65), which the model's lines do not represent: `Empty` stands only for the empty line. What such a line does depends on the previous head:
  - after `v`, `vt` or `vn` it pushes one more attribute from a failed read;
  - after `usemtl` it pushes the open submesh and opens a new one for the material `""`;
  - after `f` it adds nothing;
  - after `mtllib` the head is the library's file name, read into `head` at line 104, which matches no keyword unless the file is named like one.
- TriangleMesh.Step requires every face index to name an existing attribute, and an open submesh once a face has three tokens. The source indexes its vectors and dereferences the submesh pointer without checks.
- Viewer.DirectionMenu requires a directional light for entries 1 to 10, because the source calls through the pointer without a null check.
- Viewer.Reshape requires a camera, because the source calls through the camera pointer without a null check. The window's first reshape comes after `SetupScene` has created the camera.

=== FILE: lights.dfy ===
/** `light.h`: the point light (a position and an intensity) with its four
    axis-aligned moves, the spot light, which is a point light with a
    direction and two cone angles, and the directional light. Floats are
    modelled as reals. */
module Lights {

  import opened Vectors

  datatype PointLight = PointLight(position: Vec3, intensity: Vec3)

  datatype Move = Left | Right | Up | Down

  /** `moveSpeed * vec3(...)` for each move: a tenth of the speed along one
      axis (the zero components of the product are written as zeros). */
  function Offset(m: Move, speed: real): Vec3
  {
    match m
    case Left => Vec3(-0.1 * speed, 0.0, 0.0)
    case Right => Vec3(0.1 * speed, 0.0, 0.0)
    case Up => Vec3(0.0, 0.1 * speed, 0.0)
    case Down => Vec3(0.0, -0.1 * speed, 0.0)
  }

  /** `MoveLeft`, `MoveRight`, `MoveUp` and `MoveDown(moveSpeed)`:
      `position += moveSpeed * step`. Left and right change only x, up and
      down only y; the intensity is kept. */
  function MovePoint(l: PointLight, m: Move, speed: real): (r: PointLight)
    ensures r.intensity == l.intensity
    ensures r.position.z == l.position.z
    ensures m == Left ==> r.position == Vec3(l.position.x - 0.1 * speed, l.position.y, l.position.z)
    ensures m == Right ==> r.position == Vec3(l.position.x + 0.1 * speed, l.position.y, l.position.z)
    ensures m == Up ==> r.position == Vec3(l.position.x, l.position.y + 0.1 * speed, l.position.z)
    ensures m == Down ==> r.position == Vec3(l.position.x, l.position.y - 0.1 * speed, l.position.z)
  {
    l.(position := Add(l.position, Offset(m, speed)))
  }

  function Opposite(m: Move): Move
  {
    match m
    case Left => Right
    case Right => Left
    case Up => Down
    case Down => Up
  }

  /** A move followed by the opposite move at the same speed puts the light
      back where it was. */
  lemma MoveUndone(l: PointLight, m: Move, speed: real)
    ensures MovePoint(MovePoint(l, m, speed), Opposite(m), speed) == l
  {
  }

  /** Two moves the same way add their speeds. */
  lemma MovesAdd(l: PointLight, m: Move, a: real, b: real)
    ensures MovePoint(MovePoint(l, m, a), m, b) == MovePoint(l, m, a + b)
  {
  }

  /** Moves commute: only the multiset of moves decides where the light ends. */
  lemma MovesCommute(l: PointLight, m: Move, n: Move, a: real, b: real)
    ensures MovePoint(MovePoint(l, m, a), n, b) == MovePoint(MovePoint(l, n, b), m, a)
  {
  }

  /** A spot light: a point light that also stores where it points and its
      two cone angles in degrees. */
  datatype SpotLight = SpotLight(light: PointLight, direction: Vec3, totalWidthDeg: real, fosDeg: real)

  /** `SpotLight()`. */
  function DefaultSpotLight(): SpotLight
  {
    SpotLight(PointLight(Vec3(0.0, 2.0, 0.0), Vec3(1.0, 1.0, 1.0)), Vec3(0.0, -1.0, 0.0), 45.0, 30.0)
  }

  /** `SpotLight(p, I, D, cutoffDeg, totalWidthDegree)`: a point light at
      `p` with intensity `I`, pointing along `D`; the fourth argument is
      stored as the fall-off start and the fifth as the total width. */
  function NewSpotLight(p: Vec3, I: Vec3, D: Vec3, cutoffDeg: real, totalWidthDegree: real): (s: SpotLight)
    ensures s.light == PointLight(p, I) && s.direction == D
    ensures s.fosDeg == cutoffDeg && s.totalWidthDeg == totalWidthDegree
  {
    SpotLight(PointLight(p, I), D, totalWidthDegree, cutoffDeg)
  }

  function GetTotalWidthDegree(s: SpotLight): real
  {
    s.totalWidthDeg
  }

  function GetFallofStartDegree(s: SpotLight): real
  {
    s.fosDeg
  }

  /** The default spot light starts its fall-off at 30 degrees inside a
      45-degree cone. */
  lemma DefaultSpotLightAngles()
    ensures GetFallofStartDegree(DefaultSpotLight()) == 30.0
    ensures GetTotalWidthDegree(DefaultSpotLight()) == 45.0
    ensures GetFallofStartDegree(DefaultSpotLight()) < GetTotalWidthDegree(DefaultSpotLight())
  {
  }

  /** A spot light moves as its point light does (the moves are
      inherited); direction and angles stay. */
  function MoveSpot(s: SpotLight, m: Move, speed: real): (r: SpotLight)
    ensures r.direction == s.direction
    ensures GetTotalWidthDegree(r) == GetTotalWidthDegree(s)
    ensures GetFallofStartDegree(r) == GetFallofStartDegree(s)
    ensures r.light == MovePoint(s.light, m, speed)
  {
    s.(light := MovePoint(s.light, m, speed))
  }

  /** A directional light. `direction` is the vector as passed in:
      `glm::normalize` is not modelled. */
  datatype DirectionalLight = DirectionalLight(direction: Vec3, radiance: Vec3)

  /** `SetDirection(dir)`: replaces the direction and keeps the radiance. */
  function SetDirection(l: DirectionalLight, dir: Vec3): (r: DirectionalLight)
    ensures r.radiance == l.radiance
    ensures r.direction == dir
  {
    l.(direction := dir)
  }
}

=== FILE: materials.dfy ===
/** `TriangleMesh::LoadMtlFile`: the material library. Every `newmtl X`
    line opens a block made of the next five lines, whatever they say; in
    that window the lines headed Ns, Ka, Kd, Ks and map_Kd set the matching
    field and every other line, a nested `newmtl` included, is passed over.
    The block's material then replaces any earlier `materialMap[X]`. */
module Materials {

  import opened Options
  import opened Vectors

  /** A PhongMaterial as the renderer reads it: shininess, ambient, diffuse
      and specular reflectance, and the path of the diffuse texture when
      one was given (the texture itself is decoded elsewhere). */
  datatype Material = Material(
    name: string,
    ns: real,
    ka: Vec3,
    kd: Vec3,
    ks: Vec3,
    mapKd: Option<string>)

  /** A default-constructed PhongMaterial: no name, zero coefficients and
      no texture. */
  function DefaultMaterial(): Material
  {
    Material("", 0.0, Zero, Zero, Zero, None)
  }

  /** A line of the material file, by its head word, with its arguments
      already read. */
  datatype MtlLine =
    | NewMtl(name: string)
    | Ns(shininess: real)
    | Ka(ambient: Vec3)
    | Kd(diffuse: Vec3)
    | Ks(specular: Vec3)
    | MapKd(imageFile: string)
    | OtherMtl(head: string)

  /** Number of lines a `newmtl` line consumes after itself. */
  const BlockLength: nat := 5

  /** What one line of a block does to the material being built: the field
      its head names takes the line's value, a texture path relative to the
      model folder; the name and every other field stay as they were. */
  function ApplyLine(m: Material, line: MtlLine, folderPath: string): (r: Material)
    ensures r.name == m.name
    ensures forall f: Field :: Get(r, f) == (if Sets(line, f) then LineValue(line, folderPath) else Get(m, f))
  {
    match line
    case Ns(v) => m.(ns := v)
    case Ka(c) => m.(ka := c)
    case Kd(c) => m.(kd := c)
    case Ks(c) => m.(ks := c)
    case MapKd(f) => m.(mapKd := Some(folderPath + "/" + f))
    case _ => m
  }

  /** The material a block builds: a default material named `name`, with
      the window's lines applied in file order. */
  function BuildMaterial(name: string, window: seq<MtlLine>, folderPath: string): (m: Material)
    ensures m.name == name
    decreases |window|
  {
    if window == [] then DefaultMaterial().(name := name)
    else ApplyLine(BuildMaterial(name, window[..|window| - 1], folderPath), window[|window| - 1], folderPath)
  }

  /** The five settable fields of a material. */
  datatype Field = NsField | KaField | KdField | KsField | MapKdField

  /** The value of one field, whatever its type. */
  datatype FieldValue = Shininess(r: real) | Color(c: Vec3) | Texture(path: Option<string>)

  function Get(m: Material, f: Field): FieldValue
  {
    match f
    case NsField => Shininess(m.ns)
    case KaField => Color(m.ka)
    case KdField => Color(m.kd)
    case KsField => Color(m.ks)
    case MapKdField => Texture(m.mapKd)
  }

  /** Whether a line is headed by the keyword of field `f`. */
  predicate Sets(line: MtlLine, f: Field)
  {
    match f
    case NsField => line.Ns?
    case KaField => line.Ka?
    case KdField => line.Kd?
    case KsField => line.Ks?
    case MapKdField => line.MapKd?
  }

  /** The value such a line gives its field; a texture path is taken
      relative to the model folder. */
  function LineValue(line: MtlLine, folderPath: string): FieldValue
  {
    match line
    case Ns(v) => Shininess(v)
    case Ka(c) => Color(c)
    case Kd(c) => Color(c)
    case Ks(c) => Color(c)
    case MapKd(file) => Texture(Some(folderPath + "/" + file))
    case _ => Texture(None)
  }

  /** A field no line of the window sets keeps its default value. */
  lemma {:induction false} BuildMaterialDefault(name: string, w: seq<MtlLine>, folderPath: string, f: Field)
    requires forall j :: 0 <= j < |w| ==> !Sets(w[j], f)
    ensures Get(BuildMaterial(name, w, folderPath), f) == Get(DefaultMaterial(), f)
    decreases |w|
  {
    if w != [] {
      var w' := w[..|w| - 1];
      BuildMaterialDefault(name, w', folderPath, f);
    }
  }

  /** A field takes its value from the LAST line of the window that sets
      it; lines with any other head, `newmtl` among them, change nothing. */
  lemma {:induction false} BuildMaterialLast(name: string, w: seq<MtlLine>, folderPath: string, f: Field, j: nat)
    requires j < |w| && Sets(w[j], f)
    requires forall k :: j < k < |w| ==> !Sets(w[k], f)
    ensures Get(BuildMaterial(name, w, folderPath), f) == LineValue(w[j], folderPath)
    decreases |w|
  {
    var w' := w[..|w| - 1];
    if j < |w| - 1 {
      BuildMaterialLast(name, w', folderPath, f, j);
    }
  }

  /** A `newmtl` line and the window of lines it consumed. */
  datatype Block = Block(name: string, window: seq<MtlLine>)

  /** The blocks of a material file, in file order: the outer loop passes
      over lines until a `newmtl`, which takes the next five lines (fewer
      when the file ends first) before the loop resumes. */
  function Blocks(lines: seq<MtlLine>): (bs: seq<Block>)
    ensures forall k :: 0 <= k < |bs| ==> |bs[k].window| <= BlockLength
    ensures |bs| <= |lines|
    decreases |lines|
  {
    if lines == [] then []
    else if lines[0].NewMtl? then
      var end := if |lines| <= BlockLength then |lines| else BlockLength + 1;
      [Block(lines[0].name, lines[1..end])] + Blocks(lines[end..])
    else Blocks(lines[1..])
  }

  /** A `newmtl` line takes the next five lines as its window, whatever
      they are, another `newmtl` included, and the scan resumes after them. */
  lemma BlocksWindow(name: string, w: seq<MtlLine>, rest: seq<MtlLine>)
    requires |w| == BlockLength
    ensures Blocks([NewMtl(name)] + w + rest) == [Block(name, w)] + Blocks(rest)
  {
    var lines := [NewMtl(name)] + w + rest;
    assert lines[1..BlockLength + 1] == w && lines[BlockLength + 1..] == rest;
  }

  /** A `newmtl` line with fewer than five lines after it takes them all. */
  lemma BlocksShortWindow(name: string, w: seq<MtlLine>)
    requires |w| < BlockLength
    ensures Blocks([NewMtl(name)] + w) == [Block(name, w)]
  {
    var lines := [NewMtl(name)] + w;
    BlocksNewMtl(lines);
    var end := if |lines| <= BlockLength then |lines| else BlockLength + 1;
    assert end == |lines|;
    assert lines[1..end] == w;
    var tail := lines[end..];
    assert tail == [];
    assert Blocks(tail) == [];
    assert [Block(name, w)] + [] == [Block(name, w)];
  }

  /** One step of the scan at a `newmtl` line. */
  lemma BlocksNewMtl(lines: seq<MtlLine>)
    requires lines != [] && lines[0].NewMtl?
    ensures var end := if |lines| <= BlockLength then |lines| else BlockLength + 1;
      Blocks(lines) == [Block(lines[0].name, lines[1..end])] + Blocks(lines[end..])
  {
  }

  /** Outside a window, a line that is not `newmtl` is passed over. */
  lemma BlocksSkip(line: MtlLine, rest: seq<MtlLine>)
    requires !line.NewMtl?
    ensures Blocks([line] + rest) == Blocks(rest)
  {
    assert ([line] + rest)[1..] == rest;
  }

  /** Two `newmtl` lines in a row: the second is swallowed by the first
      one's window, so only the first name is defined, and its material
      keeps the defaults. */
  lemma NestedNewMtlSwallowed(first: string, second: string, folderPath: string)
    ensures Blocks([NewMtl(first), NewMtl(second)]) == [Block(first, [NewMtl(second)])]
    ensures var r := LoadMtlFile(map["m.mtl" := [NewMtl(first), NewMtl(second)]], "m.mtl", folderPath, map[]);
      r.1.Keys == {first} && r.1[first] == DefaultMaterial().(name := first)
  {
    var lines := [NewMtl(first), NewMtl(second)];
    BlocksShortWindow(first, [NewMtl(second)]);
    assert [NewMtl(first)] + [NewMtl(second)] == lines;
    var bs := [Block(first, [NewMtl(second)])];
    var built := BuildMaterial(first, [NewMtl(second)], folderPath);
    assert Define(map[], bs, folderPath) == map[first := built] by {
      assert bs[1..] == [];
    }
    assert DefinedNames(bs) == {first} by {
      assert bs[0].name == first;
      assert forall x :: x in DefinedNames(bs) ==> x == first;
    }
    assert built == DefaultMaterial().(name := first) by {
      assert [NewMtl(second)][..0] == [];
      assert built == ApplyLine(BuildMaterial(first, [], folderPath), NewMtl(second), folderPath);
    }
  }

  /** The names of the blocks, in order. */
  function BlockNames(bs: seq<Block>): (names: seq<string>)
    ensures |names| == |bs|
    ensures forall k :: 0 <= k < |bs| ==> names[k] == bs[k].name
  {
    if bs == [] then [] else [bs[0].name] + BlockNames(bs[1..])
  }

  /** The names on the `newmtl` lines of a file, wherever they stand. */
  function NewMtlNames(lines: seq<MtlLine>): seq<string>
  {
    if lines == [] then []
    else if lines[0].NewMtl? then [lines[0].name] + NewMtlNames(lines[1..])
    else NewMtlNames(lines[1..])
  }

  /** The layout the loader is written for: every `newmtl` line is
      followed by five lines none of which is another `newmtl`. */
  predicate StandardLayout(lines: seq<MtlLine>)
  {
    forall j :: 0 <= j < |lines| && lines[j].NewMtl? ==>
      && j + BlockLength < |lines|
      && forall k :: j < k <= j + BlockLength ==> !lines[k].NewMtl?
  }

  /** In the standard layout no definition is swallowed: the blocks are
      exactly the `newmtl` lines, in order, each with the five lines after
      it. */
  lemma {:induction false} BlocksOfStandardLayout(lines: seq<MtlLine>)
    requires StandardLayout(lines)
    ensures BlockNames(Blocks(lines)) == NewMtlNames(lines)
    ensures forall k :: 0 <= k < |Blocks(lines)| ==> |Blocks(lines)[k].window| == BlockLength
    decreases |lines|
  {
    if lines != [] {
      if lines[0].NewMtl? {
        var rest := lines[BlockLength + 1..];
        assert StandardLayout(rest) by {
          forall j | 0 <= j < |rest| && rest[j].NewMtl?
            ensures j + BlockLength < |rest| && forall k :: j < k <= j + BlockLength ==> !rest[k].NewMtl?
          {
            assert rest[j] == lines[j + BlockLength + 1];
            assert forall k :: j < k <= j + BlockLength ==> rest[k] == lines[k + BlockLength + 1];
          }
        }
        BlocksOfStandardLayout(rest);
        SkipPlainLines(lines[1..], BlockLength);
        assert lines[1..][BlockLength..] == rest;
      } else {
        var rest := lines[1..];
        assert StandardLayout(rest) by {
          forall j | 0 <= j < |rest| && rest[j].NewMtl?
            ensures j + BlockLength < |rest| && forall k :: j < k <= j + BlockLength ==> !rest[k].NewMtl?
          {
            assert rest[j] == lines[j + 1];
            assert forall k :: j < k <= j + BlockLength ==> rest[k] == lines[k + 1];
          }
        }
        BlocksOfStandardLayout(rest);
      }
    }
  }

  /** Lines that are not `newmtl` add no name. */
  lemma {:induction false} SkipPlainLines(lines: seq<MtlLine>, n: nat)
    requires n <= |lines|
    requires forall k :: 0 <= k < n ==> !lines[k].NewMtl?
    ensures NewMtlNames(lines) == NewMtlNames(lines[n..])
    decreases n
  {
    if n > 0 {
      SkipPlainLines(lines[1..], n - 1);
      assert lines[1..][n - 1..] == lines[n..];
    }
  }

  /** The names a sequence of blocks defines. */
  function DefinedNames(bs: seq<Block>): set<string>
  {
    set k | 0 <= k < |bs| :: bs[k].name
  }

  /** `materialMap[name] = material` for every block, in order. */
  function Define(m: map<string, Material>, bs: seq<Block>, folderPath: string): (r: map<string, Material>)
    ensures r.Keys == m.Keys + DefinedNames(bs)
    decreases |bs|
  {
    if bs == [] then m
    else
      var b := bs[0];
      var r := Define(m[b.name := BuildMaterial(b.name, b.window, folderPath)], bs[1..], folderPath);
      assert DefinedNames(bs) == {b.name} + DefinedNames(bs[1..]) by {
        forall x | x in DefinedNames(bs) ensures x in {b.name} + DefinedNames(bs[1..]) {
          var k :| 0 <= k < |bs| && bs[k].name == x;
          if k > 0 { assert bs[1..][k - 1] == bs[k]; }
        }
      }
      r
  }

  /** A name no block defines keeps its entry. */
  lemma {:induction false} DefineKeeps(m: map<string, Material>, bs: seq<Block>, folderPath: string, x: string)
    requires x in m
    requires forall k :: 0 <= k < |bs| ==> bs[k].name != x
    ensures Define(m, bs, folderPath)[x] == m[x]
    decreases |bs|
  {
    if bs != [] {
      var b := bs[0];
      DefineKeeps(m[b.name := BuildMaterial(b.name, b.window, folderPath)], bs[1..], folderPath, x);
    }
  }

  /** The last definition wins: the entry for a name is the material of
      the last block with that name. */
  lemma {:induction false} DefineLastWins(m: map<string, Material>, bs: seq<Block>, folderPath: string, k: nat)
    requires k < |bs|
    requires forall j :: k < j < |bs| ==> bs[j].name != bs[k].name
    ensures Define(m, bs, folderPath)[bs[k].name] == BuildMaterial(bs[k].name, bs[k].window, folderPath)
    decreases |bs|
  {
    var b := bs[0];
    var m' := m[b.name := BuildMaterial(b.name, b.window, folderPath)];
    if k == 0 {
      DefineKeeps(m', bs[1..], folderPath, b.name);
    } else {
      DefineLastWins(m', bs[1..], folderPath, k - 1);
    }
  }

  /** `LoadMtlFile(filePath, folderPath)` on a mesh whose map is `m`, with
      `files` standing for the file system: returns whether the file
      opened, and the map after it. */
  function LoadMtlFile(files: map<string, seq<MtlLine>>, filePath: string, folderPath: string,
                       m: map<string, Material>): (r: (bool, map<string, Material>))
    ensures r.0 <==> filePath in files
    ensures !r.0 ==> r.1 == m
    ensures r.0 ==> r.1.Keys == m.Keys + DefinedNames(Blocks(files[filePath]))
  {
    if filePath in files then (true, Define(m, Blocks(files[filePath]), folderPath))
    else (false, m)
  }

  /** After loading a file that opened, a block name maps to the material
      of its last block. */
  lemma LoadMtlFileLastWins(files: map<string, seq<MtlLine>>, filePath: string, folderPath: string,
                            m: map<string, Material>, k: nat)
    requires filePath in files
    requires k < |Blocks(files[filePath])|
    requires forall j :: k < j < |Blocks(files[filePath])| ==>
      Blocks(files[filePath])[j].name != Blocks(files[filePath])[k].name
    ensures var b := Blocks(files[filePath])[k];
      LoadMtlFile(files, filePath, folderPath, m).1[b.name] == BuildMaterial(b.name, b.window, folderPath)
  {
    DefineLastWins(m, Blocks(files[filePath]), folderPath, k);
  }

  /** A name the file does not define keeps its entry, and so does every
      name when the file does not open. */
  lemma LoadMtlFileKeeps(files: map<string, seq<MtlLine>>, filePath: string, folderPath: string,
                         m: map<string, Material>, x: string)
    requires x in m
    requires filePath in files ==> x !in DefinedNames(Blocks(files[filePath]))
    ensures LoadMtlFile(files, filePath, folderPath, m).1[x] == m[x]
  {
    if filePath in files {
      DefineKeeps(m, Blocks(files[filePath]), folderPath, x);
    }
  }
}

=== FILE: mesh_properties.dfy ===
/** Properties of a whole OBJ file's load: the submeshes follow the
    `usemtl` lines, the triangle count is the sum over the faces, a face
    pushes its fan into the open submesh, and the vertex count is the
    number of distinct face tokens (plus one for the re-added slot 0). */
module MeshProperties {

  import opened Options
  import opened Materials
  import opened TriangleMesh
  import Paths

  // ----- submesh grouping -------------------------------------------------

  /** What a submesh amounts to: its material and how many indices it holds. */
  datatype Group = Group(material: string, indexCount: nat)

  function Summary(subs: seq<SubMesh>): (gs: seq<Group>)
  {
    seq(|subs|, k requires 0 <= k < |subs| => Group(subs[k].material, |subs[k].vertexIndices|))
  }

  /** The groups after one more line, read off the line alone: `usemtl`
      starts an empty group, a face adds three indices per triangle to the
      last group. */
  function NextGroups(gs: seq<Group>, line: ObjLine): seq<Group>
  {
    match line
    case UseMtl(name) => gs + [Group(name, 0)]
    case F(toks) =>
      if gs == [] then gs
      else gs[..|gs| - 1] + [Group(gs[|gs| - 1].material, gs[|gs| - 1].indexCount + 3 * Triangles(|toks|))]
    case _ => gs
  }

  /** The groups a file describes. */
  function Groups(lines: seq<ObjLine>): seq<Group>
    decreases |lines|
  {
    if lines == [] then [] else NextGroups(Groups(lines[..|lines| - 1]), lines[|lines| - 1])
  }

  /** The `usemtl` names after one more line. */
  function NextNames(names: seq<string>, line: ObjLine): seq<string>
  {
    match line
    case UseMtl(name) => names + [name]
    case _ => names
  }

  /** The names of the `usemtl` lines, in file order. */
  function UseMtlNames(lines: seq<ObjLine>): seq<string>
    decreases |lines|
  {
    if lines == [] then [] else NextNames(UseMtlNames(lines[..|lines| - 1]), lines[|lines| - 1])
  }

  /** Groups one per name, bound to it, each of whole triangles. */
  predicate Follows(gs: seq<Group>, names: seq<string>)
  {
    && |gs| == |names|
    && forall k :: 0 <= k < |gs| ==> gs[k].material == names[k] && gs[k].indexCount % 3 == 0
  }

  /** A face grows the last group by three indices per triangle. */
  lemma NextGroupsFace(gs: seq<Group>, g: Group, toks: seq<FaceToken>)
    ensures NextGroups(gs + [g], F(toks)) == gs + [Group(g.material, g.indexCount + 3 * Triangles(|toks|))]
  {
    assert (gs + [g])[..|gs|] == gs;
  }

  /** A face of fewer than three tokens leaves the groups alone. */
  lemma NextGroupsShort(gs: seq<Group>, toks: seq<FaceToken>)
    requires |toks| < 3
    ensures NextGroups(gs, F(toks)) == gs
  {
    if gs != [] {
      assert gs[..|gs| - 1] + [gs[|gs| - 1]] == gs;
    }
  }

  lemma NextFollows(gs: seq<Group>, names: seq<string>, line: ObjLine)
    requires Follows(gs, names)
    ensures Follows(NextGroups(gs, line), NextNames(names, line))
  {
    match line
    case F(toks) =>
      if gs != [] {
        var last := gs[|gs| - 1];
        assert gs == gs[..|gs| - 1] + [last];
        NextGroupsFace(gs[..|gs| - 1], last, toks);
      }
    case _ =>
  }

  lemma SummarySnoc(subs: seq<SubMesh>, sm: SubMesh)
    ensures Summary(subs + [sm]) == Summary(subs) + [Group(sm.material, |sm.vertexIndices|)]
  {
    assert forall k :: 0 <= k < |subs| ==> (subs + [sm])[k] == subs[k];
  }

  /** One line moves the submeshes (the open one pushed) exactly as it
      moves the groups. */
  lemma StepGroups(st: Loader, line: ObjLine, fs: FileSystem, filePath: string)
    requires LineOk(st.attrs, st.open.Some?, line)
    ensures var r := Step(st, line, fs, filePath);
      Summary(PushOpen(r.subMeshes, r.open)) == NextGroups(Summary(PushOpen(st.subMeshes, st.open)), line)
  {
    match line
    case UseMtl(name) =>
      SummarySnoc(PushOpen(st.subMeshes, st.open), SubMesh(name, []));
    case F(toks) =>
      FaceGroups(st, toks);
    case _ =>
  }

  lemma FaceGroups(st: Loader, toks: seq<FaceToken>)
    requires LineOk(st.attrs, st.open.Some?, F(toks))
    ensures var r := AddFace(st, toks);
      Summary(PushOpen(r.subMeshes, r.open)) == NextGroups(Summary(PushOpen(st.subMeshes, st.open)), F(toks))
  {
    if st.open.Some? {
      FaceGroupsOpen(st, toks);
    } else {
      FaceGroupsClosed(st, toks);
    }
  }

  /** With a submesh open, a face grows the last group. */
  lemma FaceGroupsOpen(st: Loader, toks: seq<FaceToken>)
    requires LineOk(st.attrs, st.open.Some?, F(toks)) && st.open.Some?
    ensures var r := AddFace(st, toks);
      Summary(PushOpen(r.subMeshes, r.open)) == NextGroups(Summary(PushOpen(st.subMeshes, st.open)), F(toks))
  {
    var r := AddFace(st, toks);
    var g := Group(st.open.value.material, |st.open.value.vertexIndices|);
    SummarySnoc(st.subMeshes, st.open.value);
    SummarySnoc(st.subMeshes, r.open.value);
    NextGroupsFace(Summary(st.subMeshes), g, toks);
  }

  /** With no submesh open, the face is too short to add a triangle. */
  lemma FaceGroupsClosed(st: Loader, toks: seq<FaceToken>)
    requires LineOk(st.attrs, st.open.Some?, F(toks)) && st.open.None?
    ensures var r := AddFace(st, toks);
      Summary(PushOpen(r.subMeshes, r.open)) == NextGroups(Summary(PushOpen(st.subMeshes, st.open)), F(toks))
  {
    NextGroupsShort(Summary(PushOpen(st.subMeshes, st.open)), toks);
  }

  /** After any prefix of a file, the submeshes with the open one pushed
      are the file's groups. */
  lemma {:induction false} RunGroups(lines: seq<ObjLine>, fs: FileSystem, filePath: string)
    requires WellFormed(lines)
    ensures var st := Run(lines, fs, filePath);
      Summary(PushOpen(st.subMeshes, st.open)) == Groups(lines)
    decreases |lines|
  {
    if lines != [] {
      var before := lines[..|lines| - 1];
      RunGroups(before, fs, filePath);
      StepGroups(Run(before, fs, filePath), lines[|lines| - 1], fs, filePath);
    }
  }

  /** The groups are one per `usemtl`, in file order, each bound to that
      line's material, and every group holds whole triangles. */
  lemma {:induction false} GroupsFollowUseMtl(lines: seq<ObjLine>)
    ensures Follows(Groups(lines), UseMtlNames(lines))
    decreases |lines|
  {
    if lines != [] {
      var before := lines[..|lines| - 1];
      GroupsFollowUseMtl(before);
      NextFollows(Groups(before), UseMtlNames(before), lines[|lines| - 1]);
    }
  }

  /** The loaded mesh has one submesh per `usemtl` line, in file order,
      bound to that line's material name, and that name is a key of the
      material map (a default one if no `newmtl` defined it). */
  lemma LoadedSubMeshes(fs: FileSystem, filePath: string)
    requires Loadable(fs, filePath) && Paths.ObjPath(filePath) in fs.obj
    ensures var lines := fs.obj[Paths.ObjPath(filePath)];
      var m := LoadFromFile(fs, filePath).1;
      && |m.subMeshes| == |UseMtlNames(lines)| == |Groups(lines)|
      && forall k :: 0 <= k < |m.subMeshes| ==>
           && m.subMeshes[k].material == UseMtlNames(lines)[k]
           && UseMtlNames(lines)[k] in m.materialMap
           && |m.subMeshes[k].vertexIndices| == Groups(lines)[k].indexCount
  {
    var lines := fs.obj[Paths.ObjPath(filePath)];
    var m := LoadFromFile(fs, filePath).1;
    RunGroups(lines, fs, filePath);
    GroupsFollowUseMtl(lines);
    assert Summary(m.subMeshes) == Groups(lines);
    forall k | 0 <= k < |m.subMeshes|
      ensures m.subMeshes[k].material == UseMtlNames(lines)[k]
      ensures |m.subMeshes[k].vertexIndices| == Groups(lines)[k].indexCount
    {
      assert Summary(m.subMeshes)[k] == Groups(lines)[k];
    }
  }

  // ----- triangle count ---------------------------------------------------

  /** Triangles the faces of a file yield, `n-2` per face of `n >= 3` tokens. */
  function FaceTriangles(lines: seq<ObjLine>): nat
    decreases |lines|
  {
    if lines == [] then 0
    else
      FaceTriangles(lines[..|lines| - 1]) +
      (match lines[|lines| - 1] case F(toks) => Triangles(|toks|) case _ => 0)
  }

  /** Only a face adds triangles, `n-2` for `n >= 3` tokens. */
  lemma StepTriangles(st: Loader, line: ObjLine, fs: FileSystem, filePath: string)
    requires LineOk(st.attrs, st.open.Some?, line)
    ensures Step(st, line, fs, filePath).numTriangles ==
      st.numTriangles + (match line case F(toks) => Triangles(|toks|) case _ => 0)
  {
  }

  lemma {:induction false} RunTriangles(lines: seq<ObjLine>, fs: FileSystem, filePath: string)
    requires WellFormed(lines)
    ensures Run(lines, fs, filePath).numTriangles == FaceTriangles(lines)
    decreases |lines|
  {
    if lines != [] {
      var before := lines[..|lines| - 1];
      RunTriangles(before, fs, filePath);
      StepTriangles(Run(before, fs, filePath), lines[|lines| - 1], fs, filePath);
    }
  }

  /** `numTriangles` is the sum over the faces and a third of all indices. */
  lemma LoadedTriangles(fs: FileSystem, filePath: string)
    requires Loadable(fs, filePath) && Paths.ObjPath(filePath) in fs.obj
    ensures var m := LoadFromFile(fs, filePath).1;
      m.numTriangles == FaceTriangles(fs.obj[Paths.ObjPath(filePath)]) && 3 * m.numTriangles == TotalIndices(m.subMeshes)
  {
    RunTriangles(fs.obj[Paths.ObjPath(filePath)], fs, filePath);
  }

  // ----- one face ---------------------------------------------------------

  /** A face of `n >= 3` tokens keeps the open submesh's indices and
      appends `n-2` triangles, the k-th joining the ids of tokens 1, k+1
      and k+2. */
  lemma AddFaceFan(st: Loader, toks: seq<FaceToken>)
    requires LineOk(st.attrs, st.open.Some?, F(toks)) && |toks| >= 3
    ensures var before := st.open.value.vertexIndices;
      var after := AddFace(st, toks).open.value.vertexIndices;
      var ids := Resolve(st.table, toks, st.attrs).1;
      && |after| == |before| + 3 * (|toks| - 2)
      && after[..|before|] == before
      && forall k :: 0 <= k < |toks| - 2 ==> TriangleAt(after[|before|..], k) == (ids[0], ids[k + 1], ids[k + 2])
  {
    var before := st.open.value.vertexIndices;
    var ids := Resolve(st.table, toks, st.attrs).1;
    var after := AddFace(st, toks).open.value.vertexIndices;
    assert after == before + Fan(ids);
    assert after[|before|..] == Fan(ids);
    FanShape(ids);
  }

  /** A face of fewer than three tokens pushes nothing (its tokens still
      reach the vertex table). */
  lemma AddFaceShort(st: Loader, toks: seq<FaceToken>)
    requires LineOk(st.attrs, st.open.Some?, F(toks)) && |toks| < 3
    ensures AddFace(st, toks).open == st.open
    ensures AddFace(st, toks).numTriangles == st.numTriangles
  {
  }

  // ----- vertex count -----------------------------------------------------

  /** The distinct token texts among `seen`. */
  function Distinct(seen: seq<string>): set<string>
  {
    set x | x in seen
  }

  /** Whether the first text ever seen occurs again later: its first
      occurrence got id 0, which the table reads as absent. */
  predicate FirstRepeats(seen: seq<string>)
  {
    |seen| > 0 && seen[0] in seen[1..]
  }

  /** The text whose stored id is 0 while it has not repeated. */
  function ZeroOf(seen: seq<string>): Option<string>
  {
    if seen != [] && !FirstRepeats(seen) then Some(seen[0]) else None
  }

  /** A vertex table with key set `keys`, `extra` vertices beyond one per
      key, and `zero` the only key stored with id 0. */
  predicate Slots(tb: VertexTable, keys: set<string>, zero: Option<string>, extra: nat)
  {
    && TableValid(tb)
    && tb.vertexIdMap.Keys == keys
    && tb.numVertices == |keys| + extra
    && (zero.Some? ==> zero.value in keys)
    && forall k :: k in tb.vertexIdMap ==> (tb.vertexIdMap[k] == 0 <==> zero == Some(k))
  }

  /** The vertex table after taking the texts `seen`, in order, from an
      empty start: one key per distinct text, one vertex per distinct text
      plus one for the re-added first text, and only the first text,
      before it repeats, holding id 0. */
  predicate DedupInv(tb: VertexTable, seen: seq<string>)
  {
    Slots(tb, Distinct(seen), ZeroOf(seen), if FirstRepeats(seen) then 1 else 0)
  }

  /** Lines 138-147 on the slots: a stored non-zero id changes nothing, the
      text holding id 0 is re-added under a fresh id, and a new text gets a
      fresh id (0 in an empty table). */
  lemma SlotsStep(tb: VertexTable, keys: set<string>, zero: Option<string>, extra: nat, text: string, vertex: VertexPTN)
    requires Slots(tb, keys, zero, extra) && (keys == {} ==> extra == 0)
    ensures var r := LookupOrAdd(tb, text, vertex).0;
      if HasSlot(tb, text) then r == tb && zero != Some(text)
      else if text in keys then zero == Some(text) && Slots(r, keys, None, extra + 1)
      else Slots(r, keys + {text}, if keys == {} then Some(text) else zero, extra)
  {
    var r := LookupOrAdd(tb, text, vertex).0;
    if !HasSlot(tb, text) && text !in keys && keys != {} {
      forall k | k in r.vertexIdMap
        ensures r.vertexIdMap[k] == 0 <==> zero == Some(k)
      {
        if k == text {
          var x :| x in keys;
          assert |keys| >= 1;
        }
      }
    }
  }

  lemma FirstRepeatsSnoc(seen: seq<string>, text: string)
    ensures Distinct(seen + [text]) == Distinct(seen) + {text}
    ensures seen != [] ==> (FirstRepeats(seen + [text]) <==> FirstRepeats(seen) || text == seen[0])
    ensures seen == [] ==> !FirstRepeats(seen + [text])
  {
    if seen != [] {
      assert (seen + [text])[1..] == seen[1..] + [text];
    }
  }

  lemma LookupOrAddCount(tb: VertexTable, seen: seq<string>, text: string, vertex: VertexPTN)
    requires DedupInv(tb, seen)
    ensures DedupInv(LookupOrAdd(tb, text, vertex).0, seen + [text])
  {
    var extra := if FirstRepeats(seen) then 1 else 0;
    if seen != [] {
      assert seen[0] in Distinct(seen);
    }
    SlotsStep(tb, Distinct(seen), ZeroOf(seen), extra, text, vertex);
    FirstRepeatsSnoc(seen, text);
    if seen == [] {
      assert Distinct(seen) == {};
    } else {
      assert seen[0] in Distinct(seen);
      assert Distinct(seen) != {};
    }
  }

  /** The texts of a face's tokens. */
  function TokenTexts(toks: seq<FaceToken>): seq<string>
    decreases |toks|
  {
    if toks == [] then [] else TokenTexts(toks[..|toks| - 1]) + [toks[|toks| - 1].text]
  }

  lemma {:induction false} ResolveCount(tb: VertexTable, toks: seq<FaceToken>, a: Attributes, seen: seq<string>)
    requires forall i :: 0 <= i < |toks| ==> InRange(toks[i], a)
    requires DedupInv(tb, seen)
    ensures DedupInv(Resolve(tb, toks, a).0, seen + TokenTexts(toks))
    decreases |toks|
  {
    if toks == [] {
      assert seen + [] == seen;
    } else {
      var init := toks[..|toks| - 1];
      var tok := toks[|toks| - 1];
      ResolveCount(tb, init, a, seen);
      LookupOrAddCount(Resolve(tb, init, a).0, seen + TokenTexts(init), tok.text, VertexOf(tok, a));
      assert (seen + TokenTexts(init)) + [tok.text] == seen + TokenTexts(toks);
    }
  }

  /** The face token texts of one line. */
  function LineTexts(line: ObjLine): seq<string>
  {
    match line
    case F(toks) => TokenTexts(toks)
    case _ => []
  }

  /** The texts of every face token of a file, in order. */
  function FaceTexts(lines: seq<ObjLine>): seq<string>
    decreases |lines|
  {
    if lines == [] then [] else FaceTexts(lines[..|lines| - 1]) + LineTexts(lines[|lines| - 1])
  }

  lemma StepCount(st: Loader, line: ObjLine, fs: FileSystem, filePath: string, seen: seq<string>)
    requires LineOk(st.attrs, st.open.Some?, line)
    requires DedupInv(st.table, seen)
    ensures DedupInv(Step(st, line, fs, filePath).table, seen + LineTexts(line))
  {
    match line
    case F(toks) =>
      ResolveCount(st.table, toks, st.attrs, seen);
    case _ =>
      assert seen + LineTexts(line) == seen;
  }

  lemma {:induction false} RunCount(lines: seq<ObjLine>, fs: FileSystem, filePath: string)
    requires WellFormed(lines)
    ensures DedupInv(Run(lines, fs, filePath).table, FaceTexts(lines))
    decreases |lines|
  {
    if lines == [] {
      assert Distinct([]) == {};
    } else {
      var before := lines[..|lines| - 1];
      RunCount(before, fs, filePath);
      StepCount(Run(before, fs, filePath), lines[|lines| - 1], fs, filePath, FaceTexts(before));
    }
  }

  /** The loaded mesh has one vertex per distinct face token text, plus
      one when the very first token's text occurs again: that text's slot
      0 reads as absent and it is added a second time. */
  lemma LoadedVertices(fs: FileSystem, filePath: string)
    requires Loadable(fs, filePath) && Paths.ObjPath(filePath) in fs.obj
    ensures var texts := FaceTexts(fs.obj[Paths.ObjPath(filePath)]);
      var m := LoadFromFile(fs, filePath).1;
      && |m.vertices| == m.numVertices
      && m.numVertices == |Distinct(texts)| + (if FirstRepeats(texts) then 1 else 0)
  {
    RunCount(fs.obj[Paths.ObjPath(filePath)], fs, filePath);
  }

  /** The quirk on one face `f t t t` at the start of a file: the second
      `t` finds id 0, takes id 1 and adds a second vertex; the third
      reuses id 1. */
  lemma FirstTokenReadded(t: FaceToken, a: Attributes)
    requires InRange(t, a)
    ensures var r := Resolve(VertexTable([], 0, map[]), [t, t, t], a);
      r.1 == [0, 1, 1] && r.0.numVertices == 2 && r.0.vertexIdMap == map[t.text := 1]
  {
    var v := VertexOf(t, a);
    var e := VertexTable([], 0, map[]);
    assert [t, t, t][..2] == [t, t] && [t, t][..1] == [t] && [t][..0] == [];
    var s1 := LookupOrAdd(e, t.text, v);
    assert s1.1 == 0 && s1.0.numVertices == 1 && s1.0.vertexIdMap == map[t.text := 0];
    assert Resolve(e, [], a).0 == e && Resolve(e, [], a).1 == [];
    var r1 := Resolve(e, [t], a);
    assert r1.0 == s1.0 && r1.1 == [0];
    var s2 := LookupOrAdd(r1.0, t.text, v);
    assert s2.1 == 1 && s2.0.numVertices == 2 && s2.0.vertexIdMap == map[t.text := 1];
    var r2 := Resolve(e, [t, t], a);
    assert r2.0 == s2.0 && r2.1 == [0, 1];
    var s3 := LookupOrAdd(r2.0, t.text, v);
    assert HasSlot(r2.0, t.text) && s3.1 == 1 && s3.0 == r2.0;
  }
}

=== FILE: options.dfy ===
/** A value that may be absent: a null pointer, a texture that was never
    given, a submesh that is not open yet. */
module Options {

  datatype Option<+T> = None | Some(value: T)
}

=== FILE: paths.dfy ===
/** How `TriangleMesh::LoadFromFile` derives the object name from the model
    directory: the path is cut at every '/' by repeated
    `std::getline(ss, item, '/')`, and the last piece is the name. */
module Paths {

  /** The pieces `getline` produces, read character by character: a '/'
      ends the current piece, a final '/' does not start an extra empty
      piece, and the empty path gives no piece at all. */
  function SplitSlash(s: string): (parts: seq<string>)
    ensures s == "" <==> parts == []
    decreases |s|
  {
    if s == "" then []
    else
      var rest := SplitSlash(s[1..]);
      if s[0] == '/' then [""] + rest
      else if rest == [] then [[s[0]]]
      else [[s[0]] + rest[0]] + rest[1..]
  }

  /** The pieces glued back together with '/'. */
  function JoinSlash(parts: seq<string>): string
  {
    if parts == [] then ""
    else if |parts| == 1 then parts[0]
    else parts[0] + "/" + JoinSlash(parts[1..])
  }

  predicate EndsWithSlash(s: string)
  {
    s != "" && s[|s| - 1] == '/'
  }

  /** `s` with one trailing '/' removed, if it has one. */
  function TrimSlash(s: string): string
  {
    if EndsWithSlash(s) then s[..|s| - 1] else s
  }

  function Last<T>(xs: seq<T>): T
    requires xs != []
  {
    xs[|xs| - 1]
  }

  /** Splitting loses only a trailing '/': joining the pieces with '/'
      gives the path back without it. */
  lemma {:induction false} SplitJoin(s: string)
    ensures JoinSlash(SplitSlash(s)) == TrimSlash(s)
    decreases |s|
  {
    if s != "" {
      SplitJoin(s[1..]);
      SplitJoinStep(s);
    }
  }

  /** The step of `SplitJoin`: one more character in front. */
  lemma SplitJoinStep(s: string)
    requires s != ""
    requires JoinSlash(SplitSlash(s[1..])) == TrimSlash(s[1..])
    ensures JoinSlash(SplitSlash(s)) == TrimSlash(s)
  {
    if s[1..] == "" {
      assert SplitSlash(s[1..]) == [];
    } else {
      if s[0] == '/' {
        SplitSlashFirst(s);
        JoinSlashCons("", SplitSlash(s[1..]));
      } else {
        JoinFirstChar(s);
      }
      TrimCons(s[0], s[1..]);
      assert s == [s[0]] + s[1..];
    }
  }

  /** A first character other than '/' joins the first piece. */
  lemma SplitChar(s: string)
    requires |s| >= 2 && s[0] != '/'
    ensures var rest := SplitSlash(s[1..]);
      rest != [] && SplitSlash(s) == [[s[0]] + rest[0]] + rest[1..]
  {
  }

  lemma JoinFirstChar(s: string)
    requires |s| >= 2 && s[0] != '/'
    ensures JoinSlash(SplitSlash(s)) == [s[0]] + JoinSlash(SplitSlash(s[1..]))
  {
    SplitChar(s);
    JoinChar(s[0], SplitSlash(s[1..]));
  }

  lemma JoinChar(c: char, parts: seq<string>)
    requires parts != []
    ensures JoinSlash([[c] + parts[0]] + parts[1..]) == [c] + JoinSlash(parts)
  {
    JoinCons(c, parts[0], parts[1..]);
    assert [parts[0]] + parts[1..] == parts;
  }

  lemma JoinSlashCons(first: string, tail: seq<string>)
    requires tail != []
    ensures JoinSlash([first] + tail) == first + "/" + JoinSlash(tail)
  {
    assert ([first] + tail)[1..] == tail;
  }

  lemma JoinCons(c: char, first: string, tail: seq<string>)
    ensures JoinSlash([[c] + first] + tail) == [c] + JoinSlash([first] + tail)
  {
    if tail != [] {
      assert ([[c] + first] + tail)[1..] == tail;
      assert ([first] + tail)[1..] == tail;
    }
  }

  /** `name` is the part of `t` after its last '/', or all of `t` when it
      has none (given that `name` holds no '/'). */
  predicate IsLastSegment(t: string, name: string)
  {
    && |name| <= |t|
    && t[|t| - |name|..] == name
    && (|name| == |t| || t[|t| - |name| - 1] == '/')
  }

  /** The object name: the last piece of the path (line 36). The empty path
      has no piece, and the source reads past its vector then. */
  function ObjectName(filePath: string): (name: string)
    requires filePath != ""
    ensures '/' !in name
    ensures IsLastSegment(TrimSlash(filePath), name)
  {
    LastPiece(filePath);
    SplitNoSlash(filePath);
    Last(SplitSlash(filePath))
  }

  predicate NoSlash(parts: seq<string>)
  {
    forall k :: 0 <= k < |parts| ==> '/' !in parts[k]
  }

  /** No piece holds a '/'. */
  lemma {:induction false} SplitNoSlash(s: string)
    ensures NoSlash(SplitSlash(s))
    decreases |s|
  {
    if s != "" {
      SplitNoSlash(s[1..]);
      NoSlashStep(s);
    }
  }

  lemma NoSlashStep(s: string)
    requires s != "" && NoSlash(SplitSlash(s[1..]))
    ensures NoSlash(SplitSlash(s))
  {
    var rest := SplitSlash(s[1..]);
    if s[0] != '/' && rest != [] {
      assert '/' !in [s[0]] + rest[0];
      assert SplitSlash(s)[1..] == rest[1..];
    }
  }

  /** The last piece is what follows the last '/' of the path once a
      trailing '/' is dropped; it is the whole of it exactly when the path
      splits into one piece. */
  lemma {:induction false} LastPiece(s: string)
    requires s != ""
    ensures IsLastSegment(TrimSlash(s), Last(SplitSlash(s)))
    ensures |SplitSlash(s)| == 1 <==> |Last(SplitSlash(s))| == |TrimSlash(s)|
    decreases |s|
  {
    if |s| == 1 {
      assert SplitSlash(s[1..]) == [];
    } else {
      LastPiece(s[1..]);
      LastPieceStep(s);
    }
  }

  /** The step of `LastPiece`: from the tail's last piece to the path's. */
  lemma LastPieceStep(s: string)
    requires |s| >= 2
    requires IsLastSegment(TrimSlash(s[1..]), Last(SplitSlash(s[1..])))
    requires |SplitSlash(s[1..])| == 1 <==> |Last(SplitSlash(s[1..]))| == |TrimSlash(s[1..])|
    ensures IsLastSegment(TrimSlash(s), Last(SplitSlash(s)))
    ensures |SplitSlash(s)| == 1 <==> |Last(SplitSlash(s))| == |TrimSlash(s)|
  {
    var s' := s[1..];
    var rest := SplitSlash(s');
    var tr := TrimSlash(s');
    TrimCons(s[0], s');
    assert s == [s[0]] + s';
    SplitCons(s);
    if s[0] == '/' || |rest| >= 2 {
      ShiftSegment([s[0]], tr, Last(rest));
    } else {
      assert Last(rest) == tr by {
        assert tr[|tr| - |Last(rest)|..] == tr;
      }
      assert Last(SplitSlash(s)) == TrimSlash(s);
    }
  }

  /** How the pieces of a path relate to those of its tail. */
  lemma SplitCons(s: string)
    requires |s| >= 2
    ensures var rest := SplitSlash(s[1..]);
      if s[0] == '/' || |rest| >= 2 then
        Last(SplitSlash(s)) == Last(rest) && |SplitSlash(s)| >= 2
      else
        Last(SplitSlash(s)) == [s[0]] + Last(rest) && |SplitSlash(s)| == 1
  {
    if s[0] == '/' {
      SplitSlashFirst(s);
    } else {
      SplitChar(s);
    }
  }

  /** A first '/' closes an empty first piece. */
  lemma SplitSlashFirst(s: string)
    requires |s| >= 2 && s[0] == '/'
    ensures SplitSlash(s) == [""] + SplitSlash(s[1..])
  {
  }

  lemma TrimCons(c: char, s: string)
    requires s != ""
    ensures TrimSlash([c] + s) == [c] + TrimSlash(s)
  {
    var cs := [c] + s;
    assert cs[|cs| - 1] == s[|s| - 1];
    if EndsWithSlash(s) {
      assert cs[..|cs| - 1] == [c] + s[..|s| - 1];
    }
  }

  /** A last segment of `tr` stays one behind a prefix, unless it was all
      of `tr` and the prefix does not end in '/'. */
  lemma ShiftSegment(pre: string, tr: string, name: string)
    requires pre != ""
    requires IsLastSegment(tr, name)
    requires |name| == |tr| ==> pre[|pre| - 1] == '/'
    ensures IsLastSegment(pre + tr, name)
    ensures |name| < |pre + tr|
  {
    var t := pre + tr;
    assert t[|t| - |name|..] == tr[|tr| - |name|..];
    if |name| == |tr| {
      assert t[|t| - |name| - 1] == pre[|pre| - 1];
    } else {
      assert t[|t| - |name| - 1] == tr[|tr| - |name| - 1];
    }
  }

  /** The model file opened: `filePath + '/' + objectName + ".obj"` (line 54),
      a file inside the folder whose base name is the folder's last segment. */
  function ObjPath(filePath: string): (p: string)
    requires filePath != ""
    ensures |p| >= |filePath| + 5
    ensures p[..|filePath|] == filePath && p[|filePath|] == '/'
    ensures p[|p| - 4..] == ".obj"
    ensures '/' !in p[|filePath| + 1..|p| - 4]
    ensures IsLastSegment(TrimSlash(filePath), p[|filePath| + 1..|p| - 4])
  {
    var name := ObjectName(filePath);
    var p := filePath + "/" + name + ".obj";
    assert p[|filePath| + 1..|p| - 4] == name;
    p
  }
}

=== FILE: trianglemesh.dfy ===
/** `TriangleMesh::LoadFromFile`: reads the model's OBJ file line by line,
    collects positions, texture coordinates and normals, turns every face
    token into a vertex slot through `vertexIdMap`, fan-triangulates each
    face into the open submesh, and opens a new submesh at every `usemtl`.
    The file is a list of already tokenised lines; the file system is a
    parameter mapping paths to those lists. */
module TriangleMesh {

  import opened Options
  import opened Vectors
  import opened Materials
  import Paths

  /** A face-vertex token such as `3/1/2`: its text, which is the key of
      `vertexIdMap`, and the 1-based position, texture and normal indices
      read from it. */
  datatype FaceToken = FaceToken(text: string, p: int, t: int, n: int)

  /** A line of the OBJ file, by its head word. */
  datatype ObjLine =
    | Empty
    | V(position: Vec3)
    | Vt(texcoord: Vec2)
    | Vn(normal: Vec3)
    | MtlLib(file: string)
    | UseMtl(material: string)
    | F(tokens: seq<FaceToken>)
    | OtherObj(head: string)

  datatype VertexPTN = VertexPTN(position: Vec3, normal: Vec3, texcoord: Vec2)

  /** A group of triangles drawn with one material, named by its key in
      the material map: the source keeps a pointer into the map, which sees
      a later redefinition of the same name just as the key does. */
  datatype SubMesh = SubMesh(material: string, vertexIndices: seq<nat>)

  /** The attribute lists read so far (locals of `LoadFromFile`). */
  datatype Attributes = Attributes(positions: seq<Vec3>, texcoords: seq<Vec2>, normals: seq<Vec3>)

  /** The deduplicated vertex store: `vertices`, `numVertices` and
      `vertexIdMap`. */
  datatype VertexTable = VertexTable(vertices: seq<VertexPTN>, numVertices: nat, vertexIdMap: map<string, nat>)

  /** Everything `LoadFromFile` updates while it reads lines. */
  datatype Loader = Loader(
    attrs: Attributes,
    table: VertexTable,
    numTriangles: nat,
    subMeshes: seq<SubMesh>,
    open: Option<SubMesh>,
    materialMap: map<string, Material>)

  /** The loaded mesh. */
  datatype Mesh = Mesh(
    vertices: seq<VertexPTN>,
    subMeshes: seq<SubMesh>,
    materialMap: map<string, Material>,
    numVertices: nat,
    numTriangles: nat)

  /** The files the loader can open. */
  datatype FileSystem = FileSystem(obj: map<string, seq<ObjLine>>, mtl: map<string, seq<MtlLine>>)

  // ----- attributes -------------------------------------------------------

  /** `v`, `vt` and `vn` lines append to their list; nothing else does. */
  function AddAttribute(a: Attributes, line: ObjLine): Attributes
  {
    match line
    case V(p) => a.(positions := a.positions + [p])
    case Vt(t) => a.(texcoords := a.texcoords + [t])
    case Vn(n) => a.(normals := a.normals + [n])
    case _ => a
  }

  /** The attribute lists after reading `lines`. */
  function Collect(lines: seq<ObjLine>): Attributes
    decreases |lines|
  {
    if lines == [] then Attributes([], [], [])
    else AddAttribute(Collect(lines[..|lines| - 1]), lines[|lines| - 1])
  }

  /** Later lines only append attributes: what a face reads after a prefix
      of the file is still there, unchanged, at the end of the file. */
  lemma {:induction false} CollectPrefix(lines: seq<ObjLine>, k: nat)
    requires k <= |lines|
    ensures Collect(lines[..k]).positions <= Collect(lines).positions
    ensures Collect(lines[..k]).texcoords <= Collect(lines).texcoords
    ensures Collect(lines[..k]).normals <= Collect(lines).normals
    decreases |lines| - k
  {
    if k < |lines| {
      var init := lines[..|lines| - 1];
      assert lines[..k] == init[..k];
      CollectPrefix(init, k);
    } else {
      assert lines[..k] == lines;
    }
  }

  /** The indices of a token name existing attributes; the source indexes
      its vectors without a check. */
  predicate InRange(tok: FaceToken, a: Attributes)
  {
    && 1 <= tok.p <= |a.positions|
    && 1 <= tok.t <= |a.texcoords|
    && 1 <= tok.n <= |a.normals|
  }

  /** `VertexPTN(positions[p-1], normals[n-1], textures[t-1])`: the
      token's first index picks the position, its second the texture
      coordinate and its third the normal, although the constructor takes
      the normal before the texture coordinate. */
  function VertexOf(tok: FaceToken, a: Attributes): (v: VertexPTN)
    requires InRange(tok, a)
    ensures v.position == a.positions[tok.p - 1]
    ensures v.texcoord == a.texcoords[tok.t - 1]
    ensures v.normal == a.normals[tok.n - 1]
  {
    VertexPTN(a.positions[tok.p - 1], a.normals[tok.n - 1], a.texcoords[tok.t - 1])
  }

  // ----- vertex deduplication ---------------------------------------------

  predicate TableValid(tb: VertexTable)
  {
    && |tb.vertices| == tb.numVertices
    && forall k :: k in tb.vertexIdMap ==> tb.vertexIdMap[k] < tb.numVertices
  }

  /** Whether `vertexIdMap[text] != NULL`: an absent key reads as 0 (and is
      inserted as 0 by `operator[]`), so a stored id of 0 counts as absent. */
  predicate HasSlot(tb: VertexTable, text: string)
  {
    text in tb.vertexIdMap && tb.vertexIdMap[text] != 0
  }

  /** Lines 138-147: the id of a token, adding its vertex when the map has
      no non-zero id for the token's text. */
  function LookupOrAdd(tb: VertexTable, text: string, vertex: VertexPTN): (r: (VertexTable, nat))
    ensures HasSlot(tb, text) ==> r.0 == tb && r.1 == tb.vertexIdMap[text]
    ensures !HasSlot(tb, text) ==>
      && r.1 == tb.numVertices
      && r.0.numVertices == tb.numVertices + 1
      && r.0.vertices == tb.vertices + [vertex]
      && r.0.vertexIdMap == tb.vertexIdMap[text := tb.numVertices]
    ensures r.0.vertexIdMap.Keys == tb.vertexIdMap.Keys + {text}
    ensures text in r.0.vertexIdMap && r.0.vertexIdMap[text] == r.1
    ensures TableValid(tb) ==> TableValid(r.0) && r.1 < r.0.numVertices
  {
    if HasSlot(tb, text) then (tb, tb.vertexIdMap[text])
    else
      (VertexTable(tb.vertices + [vertex], tb.numVertices + 1, tb.vertexIdMap[text := tb.numVertices]),
       tb.numVertices)
  }

  /** The ids of a face's tokens, resolved one after the other. */
  function Resolve(tb: VertexTable, toks: seq<FaceToken>, a: Attributes): (r: (VertexTable, seq<nat>))
    requires forall i :: 0 <= i < |toks| ==> InRange(toks[i], a)
    ensures |r.1| == |toks|
    ensures tb.numVertices <= r.0.numVertices

    ensures tb.vertexIdMap.Keys <= r.0.vertexIdMap.Keys
    ensures TableValid(tb) ==> TableValid(r.0) && forall i :: 0 <= i < |r.1| ==> r.1[i] < r.0.numVertices
    decreases |toks|
  {
    if toks == [] then (tb, [])
    else
      var prev := Resolve(tb, toks[..|toks| - 1], a);
      var tok := toks[|toks| - 1];
      var step := LookupOrAdd(prev.0, tok.text, VertexOf(tok, a));
      (step.0, prev.1 + [step.1])
  }

  /** Resolving never rewrites a vertex already in the table: the
      table's vertex list only grows at its end. */
  lemma {:induction false} ResolveKeepsVertices(tb: VertexTable, toks: seq<FaceToken>, a: Attributes)
    requires forall i :: 0 <= i < |toks| ==> InRange(toks[i], a)
    ensures tb.vertices <= Resolve(tb, toks, a).0.vertices
    decreases |toks|
  {
    if toks != [] {
      ResolveKeepsVertices(tb, toks[..|toks| - 1], a);
    }
  }

  // ----- fan triangulation ------------------------------------------------

  /** Triangles a face of `n` tokens yields. */
  function Triangles(n: nat): nat
  {
    if n >= 3 then n - 2 else 0
  }

  /** The indices a face pushes: from its third token on, every token
      closes the triangle (first, previous, this one). */
  function Fan(ids: seq<nat>): (tris: seq<nat>)
    ensures |tris| == 3 * Triangles(|ids|)
    decreases |ids|
  {
    if |ids| < 3 then []
    else Fan(ids[..|ids| - 1]) + [ids[0], ids[|ids| - 2], ids[|ids| - 1]]
  }

  /** A fan only uses the ids it was given. */
  lemma {:induction false} FanMembers(ids: seq<nat>)
    ensures forall k :: 0 <= k < |Fan(ids)| ==> Fan(ids)[k] in ids
    decreases |ids|
  {
    if |ids| >= 3 {
      var ids' := ids[..|ids| - 1];
      FanMembers(ids');
      assert forall x :: x in ids' ==> x in ids;
    }
  }

  /** A fan of ids below `n` holds only ids below `n`. */
  lemma {:induction false} FanBounded(ids: seq<nat>, n: nat)
    requires forall i :: 0 <= i < |ids| ==> ids[i] < n
    ensures forall j :: 0 <= j < |Fan(ids)| ==> Fan(ids)[j] < n
    decreases |ids|
  {
    if |ids| >= 3 {
      FanBounded(ids[..|ids| - 1], n);
    }
  }

  /** The k-th triangle of an index list. */
  function TriangleAt(tris: seq<nat>, k: nat): (nat, nat, nat)
    requires 3 * k + 2 < |tris|
  {
    (tris[3 * k], tris[3 * k + 1], tris[3 * k + 2])
  }

  /** Fan order: the k-th triangle of a face pivots on its first token and
      joins tokens k+1 and k+2. */
  lemma {:induction false} FanShape(ids: seq<nat>)
    ensures forall k :: 0 <= k < |ids| - 2 ==> TriangleAt(Fan(ids), k) == (ids[0], ids[k + 1], ids[k + 2])
    decreases |ids|
  {
    if |ids| >= 3 {
      var ids' := ids[..|ids| - 1];
      FanShape(ids');
      var prev := Fan(ids');
      assert Fan(ids) == prev + [ids[0], ids[|ids| - 2], ids[|ids| - 1]];
      forall k | 0 <= k < |ids| - 2
        ensures TriangleAt(Fan(ids), k) == (ids[0], ids[k + 1], ids[k + 2])
      {
        if k < |ids| - 3 {
          assert TriangleAt(Fan(ids), k) == TriangleAt(prev, k);
        }
      }
    }
  }

  // ----- the loader state -------------------------------------------------

  /** A submesh whose indices form whole triangles of existing vertices
      and whose material is in the map. */
  predicate SubMeshOk(sm: SubMesh, numVertices: nat, materials: map<string, Material>)
  {
    && |sm.vertexIndices| % 3 == 0
    && (forall j :: 0 <= j < |sm.vertexIndices| ==> sm.vertexIndices[j] < numVertices)
    && sm.material in materials
  }

  /** Every submesh of `subs`, and the open one, is OK. */
  predicate AllOk(subs: seq<SubMesh>, open: Option<SubMesh>, numVertices: nat, materials: map<string, Material>)
  {
    && (forall k :: 0 <= k < |subs| ==> SubMeshOk(subs[k], numVertices, materials))
    && (open.Some? ==> SubMeshOk(open.value, numVertices, materials))
  }

  /** More vertices and more materials keep submeshes OK. */
  lemma AllOkGrows(subs: seq<SubMesh>, open: Option<SubMesh>, n: nat, n': nat, m: map<string, Material>, m': map<string, Material>)
    requires AllOk(subs, open, n, m) && n <= n' && m.Keys <= m'.Keys
    ensures AllOk(subs, open, n', m')
  {
  }

  /** Whole triangles of existing vertices keep a submesh OK. */
  lemma AppendOk(sm: SubMesh, extra: seq<nat>, n: nat, m: map<string, Material>)
    requires SubMeshOk(sm, n, m) && |extra| % 3 == 0
    requires forall j :: 0 <= j < |extra| ==> extra[j] < n
    ensures SubMeshOk(sm.(vertexIndices := sm.vertexIndices + extra), n, m)
  {
  }

  /** Number of indices held by a list of submeshes. */
  function TotalIndices(subs: seq<SubMesh>): nat
    decreases |subs|
  {
    if subs == [] then 0
    else TotalIndices(subs[..|subs| - 1]) + |subs[|subs| - 1].vertexIndices|
  }

  /** The submesh list once the open submesh, if any, is pushed
      (lines 109-111 and 171-173). */
  function PushOpen(subs: seq<SubMesh>, open: Option<SubMesh>): (r: seq<SubMesh>)
    ensures TotalIndices(r) == TotalIndices(subs) + (if open.Some? then |open.value.vertexIndices| else 0)
  {
    if open.Some? then
      var r := subs + [open.value];
      assert r[..|r| - 1] == subs;
      r
    else subs
  }

  /** What holds of the loader after every line. */
  predicate Invariant(st: Loader)
  {
    && TableValid(st.table)
    && AllOk(st.subMeshes, st.open, st.table.numVertices, st.materialMap)
    && 3 * st.numTriangles == TotalIndices(PushOpen(st.subMeshes, st.open))
  }

  /** What the source needs before it can take `line`: face indices inside
      the attribute lists, and an open submesh once a face reaches its
      third token (the source dereferences a null pointer otherwise). */
  predicate LineOk(a: Attributes, hasOpen: bool, line: ObjLine)
  {
    line.F? ==>
      && (forall i :: 0 <= i < |line.tokens| ==> InRange(line.tokens[i], a))
      && (|line.tokens| >= 3 ==> hasOpen)
  }

  // ----- one face ---------------------------------------------------------

  /** Lines 120-166 as a function: resolve the tokens, then push the fan
      of their ids into the open submesh. */
  function AddFace(st: Loader, toks: seq<FaceToken>): (r: Loader)
    requires LineOk(st.attrs, st.open.Some?, F(toks))
    ensures r.attrs == st.attrs && r.subMeshes == st.subMeshes && r.materialMap == st.materialMap
    ensures r.numTriangles == st.numTriangles + Triangles(|toks|)
    ensures r.open.Some? == st.open.Some?
    ensures r.open.Some? ==> r.open.value.material == st.open.value.material
    ensures r.open.Some? ==>
      |r.open.value.vertexIndices| == |st.open.value.vertexIndices| + 3 * Triangles(|toks|)
    ensures st.table.numVertices <= r.table.numVertices
    ensures Invariant(st) ==> Invariant(r)
  {
    var res := Resolve(st.table, toks, st.attrs);
    var tris := Fan(res.1);
    var r := st.(table := res.0,
                 numTriangles := st.numTriangles + Triangles(|toks|),
                 open := if |toks| >= 3 then Some(st.open.value.(vertexIndices := st.open.value.vertexIndices + tris))
                         else st.open);
    assert Invariant(st) ==> Invariant(r) by {
      if Invariant(st) {
        AllOkGrows(st.subMeshes, st.open, st.table.numVertices, res.0.numVertices, st.materialMap, st.materialMap);
        if |toks| >= 3 {
          FanBounded(res.1, res.0.numVertices);
          AppendOk(st.open.value, tris, res.0.numVertices, st.materialMap);
        }
      }
    }
    r
  }

  /** The locals of the token loop at lines 122-165. */
  datatype FaceCursor = FaceCursor(
    table: VertexTable,
    indices: seq<nat>,
    numTriangles: nat,
    forPolygonCheck: nat,
    firstIndex: nat,
    lastIndex: nat)

  /** One pass of the token loop: resolve the token, then by the counter
      remember the first id, remember the second, or push a triangle. */
  function TakeToken(c: FaceCursor, tok: FaceToken, a: Attributes): FaceCursor
    requires InRange(tok, a)
  {
    var step := LookupOrAdd(c.table, tok.text, VertexOf(tok, a));
    var index := step.1;
    var count := c.forPolygonCheck + 1;
    var c' := c.(table := step.0, forPolygonCheck := count);
    if count == 1 then c'.(firstIndex := index)
    else if count == 2 then c'.(lastIndex := index)
    else c'.(indices := c.indices + [c.firstIndex, c.lastIndex, index],
             lastIndex := index,
             numTriangles := c.numTriangles + 1)
  }

  /** The cursor after `i` tokens agrees with resolving them all at once
      and pushing their fan. */
  predicate CursorAgrees(c: FaceCursor, st: Loader, toks: seq<FaceToken>, base: seq<nat>)
    requires LineOk(st.attrs, st.open.Some?, F(toks))
  {
    && c.forPolygonCheck <= |toks|
    && var res := Resolve(st.table, toks[..c.forPolygonCheck], st.attrs);
    && c.table == res.0
    && c.indices == base + Fan(res.1)
    && c.numTriangles == st.numTriangles + Triangles(c.forPolygonCheck)
    && (c.forPolygonCheck >= 1 ==> c.firstIndex == res.1[0])
    && (c.forPolygonCheck >= 2 ==> c.lastIndex == res.1[c.forPolygonCheck - 1])
  }

  lemma TakeTokenAgrees(c: FaceCursor, st: Loader, toks: seq<FaceToken>, base: seq<nat>)
    requires LineOk(st.attrs, st.open.Some?, F(toks))
    requires CursorAgrees(c, st, toks, base) && c.forPolygonCheck < |toks|
    ensures CursorAgrees(TakeToken(c, toks[c.forPolygonCheck], st.attrs), st, toks, base)
  {
    var i := c.forPolygonCheck;
    var ids := Resolve(st.table, toks[..i], st.attrs).1;
    var step := LookupOrAdd(c.table, toks[i].text, VertexOf(toks[i], st.attrs));
    ResolveSnoc(st.table, toks, st.attrs, i);
    FanStep(c.indices, base, ids, c.firstIndex, c.lastIndex, step.1);
  }

  /** The cursor's push of (first, last, new) extends the fan the way one
      more id does. */
  lemma FanStep(indices: seq<nat>, base: seq<nat>, ids: seq<nat>, first: nat, last: nat, x: nat)
    requires indices == base + Fan(ids)
    requires |ids| >= 2 ==> first == ids[0] && last == ids[|ids| - 1]
    ensures base + Fan(ids + [x]) ==
      if |ids| >= 2 then indices + [first, last, x] else indices
  {
    FanSnoc(ids, x);
    var tail := if |ids| >= 2 then [first, last, x] else [];
    Concat3(base, Fan(ids), tail);
  }

  lemma Concat3<T>(a: seq<T>, b: seq<T>, c: seq<T>)
    ensures a + (b + c) == (a + b) + c
  {
  }

  /** Lines 120-166 as the source writes them: one pass over the tokens
      with the counter of `TakeToken`. */
  method AddFaceLoop(st: Loader, toks: seq<FaceToken>) returns (r: Loader)
    requires LineOk(st.attrs, st.open.Some?, F(toks))
    ensures r == AddFace(st, toks)
  {
    var base := if st.open.Some? then st.open.value.vertexIndices else [];
    var c := FaceCursor(st.table, base, st.numTriangles, 0, 0, 0);
    CursorStart(st, toks, base);
    while c.forPolygonCheck < |toks|
      invariant CursorAgrees(c, st, toks, base)
      decreases |toks| - c.forPolygonCheck
    {
      TakeTokenAgrees(c, st, toks, base);
      c := TakeToken(c, toks[c.forPolygonCheck], st.attrs);
    }
    CursorDone(c, st, toks, base);
    r := st.(table := c.table,
             numTriangles := c.numTriangles,
             open := if |toks| >= 3 then Some(st.open.value.(vertexIndices := c.indices)) else st.open);
  }

  /** Before the first token the cursor holds the table and indices it
      was given. */
  lemma CursorStart(st: Loader, toks: seq<FaceToken>, base: seq<nat>)
    requires LineOk(st.attrs, st.open.Some?, F(toks))
    ensures CursorAgrees(FaceCursor(st.table, base, st.numTriangles, 0, 0, 0), st, toks, base)
  {
    assert toks[..0] == [];
  }

  /** A cursor that has taken every token holds what `AddFace` computes. */
  lemma CursorDone(c: FaceCursor, st: Loader, toks: seq<FaceToken>, base: seq<nat>)
    requires LineOk(st.attrs, st.open.Some?, F(toks))
    requires base == if st.open.Some? then st.open.value.vertexIndices else []
    requires CursorAgrees(c, st, toks, base) && c.forPolygonCheck == |toks|
    ensures AddFace(st, toks) == st.(table := c.table, numTriangles := c.numTriangles,
      open := if |toks| >= 3 then Some(st.open.value.(vertexIndices := c.indices)) else st.open)
  {
    assert toks[..|toks|] == toks;
  }

  /** Resolving one more token extends the ids by that token's id. */
  lemma ResolveSnoc(tb: VertexTable, toks: seq<FaceToken>, a: Attributes, i: nat)
    requires i < |toks|
    requires forall j :: 0 <= j < |toks| ==> InRange(toks[j], a)
    ensures var prev := Resolve(tb, toks[..i], a);
      var step := LookupOrAdd(prev.0, toks[i].text, VertexOf(toks[i], a));
      Resolve(tb, toks[..i + 1], a) == (step.0, prev.1 + [step.1])
  {
    assert toks[..i + 1][..i] == toks[..i];
  }

  /** One more id adds the triangle (first, previous, new) once there are
      three. */
  lemma FanSnoc(ids: seq<nat>, x: nat)
    ensures Fan(ids + [x]) == Fan(ids) + (if |ids| >= 2 then [ids[0], ids[|ids| - 1], x] else [])
  {
    assert (ids + [x])[..|ids|] == ids;
  }

  // ----- one line ---------------------------------------------------------

  /** `materialMap[name]`: an undefined name gets a default material. */
  function EnsureMaterial(m: map<string, Material>, name: string): (r: map<string, Material>)
    ensures r.Keys == m.Keys + {name}
    ensures name in m ==> r == m
    ensures name !in m ==> r[name] == DefaultMaterial() && forall x :: x in m ==> r[x] == m[x]
  {
    if name in m then m else m[name := DefaultMaterial()]
  }

  /** One line of the OBJ file; `filePath` is the model directory. */
  function Step(st: Loader, line: ObjLine, fs: FileSystem, filePath: string): (r: Loader)
    requires LineOk(st.attrs, st.open.Some?, line)
    ensures r.attrs == AddAttribute(st.attrs, line)
    ensures r.open.Some? <==> st.open.Some? || line.UseMtl?
    ensures st.table.numVertices <= r.table.numVertices
    ensures st.numTriangles <= r.numTriangles
    ensures st.subMeshes <= r.subMeshes
    ensures st.materialMap.Keys <= r.materialMap.Keys
    ensures Invariant(st) ==> Invariant(r)
  {
    match line
    case MtlLib(file) => MtlLibStep(st, file, fs, filePath)
    case UseMtl(name) => UseMtlStep(st, name)
    case F(toks) => AddFace(st, toks)
    case _ => st.(attrs := AddAttribute(st.attrs, line))
  }

  /** `mtllib`: the named file, looked up in the model directory, adds its
      materials; nothing else changes. */
  function MtlLibStep(st: Loader, file: string, fs: FileSystem, filePath: string): (r: Loader)
    ensures r == st.(materialMap := r.materialMap)
    ensures st.materialMap.Keys <= r.materialMap.Keys
    ensures Invariant(st) ==> Invariant(r)
  {
    var r := st.(materialMap := LoadMtlFile(fs.mtl, filePath + "/" + file, filePath, st.materialMap).1);
    assert Invariant(st) ==> Invariant(r) by {
      if Invariant(st) {
        MoreMaterialsInvariant(st, r.materialMap);
      }
    }
    r
  }

  /** `usemtl`: closes the open submesh and opens an empty one for `name`,
      making sure the material exists. */
  function UseMtlStep(st: Loader, name: string): (r: Loader)
    ensures r.attrs == st.attrs && r.table == st.table && r.numTriangles == st.numTriangles
    ensures r.open == Some(SubMesh(name, []))
    ensures st.subMeshes <= r.subMeshes
    ensures st.materialMap.Keys <= r.materialMap.Keys
    ensures Invariant(st) ==> Invariant(r)
  {
    var r := st.(subMeshes := PushOpen(st.subMeshes, st.open),
                 materialMap := EnsureMaterial(st.materialMap, name),
                 open := Some(SubMesh(name, [])));
    assert Invariant(st) ==> Invariant(r) by {
      if Invariant(st) {
        UseMtlInvariant(st, name);
      }
    }
    r
  }

  /** An `mtllib` only adds or redefines materials, which keeps the
      invariant. */
  lemma MoreMaterialsInvariant(st: Loader, m': map<string, Material>)
    requires Invariant(st) && st.materialMap.Keys <= m'.Keys
    ensures Invariant(st.(materialMap := m'))
  {
    AllOkGrows(st.subMeshes, st.open, st.table.numVertices, st.table.numVertices, st.materialMap, m');
  }

  /** A `usemtl` keeps the loader's invariant: the pushed submesh was OK
      and the new one is empty. */
  lemma UseMtlInvariant(st: Loader, name: string)
    requires Invariant(st)
    ensures Invariant(st.(subMeshes := PushOpen(st.subMeshes, st.open),
                          materialMap := EnsureMaterial(st.materialMap, name),
                          open := Some(SubMesh(name, []))))
  {
    var m' := EnsureMaterial(st.materialMap, name);
    PushOpenOk(st.subMeshes, st.open, st.table.numVertices, st.materialMap, m');
  }

  /** Pushing the open submesh keeps every submesh OK, also under a larger
      material map. */
  lemma PushOpenOk(subs: seq<SubMesh>, open: Option<SubMesh>, n: nat, m: map<string, Material>, m': map<string, Material>)
    requires AllOk(subs, open, n, m) && m.Keys <= m'.Keys
    ensures AllOk(PushOpen(subs, open), None, n, m')
  {
    var r := PushOpen(subs, open);
    forall k | 0 <= k < |r|
      ensures SubMeshOk(r[k], n, m')
    {
      if k == |subs| {
        assert r[k] == open.value;
      } else {
        assert r[k] == subs[k];
      }
    }
  }

  // ----- the whole file ---------------------------------------------------

  /** Whether some line is a `usemtl`. */
  predicate HasUseMtl(lines: seq<ObjLine>)
    decreases |lines|
  {
    lines != [] && (HasUseMtl(lines[..|lines| - 1]) || lines[|lines| - 1].UseMtl?)
  }

  /** Every line is one the source can take where it stands. */
  predicate WellFormed(lines: seq<ObjLine>)
    decreases |lines|
  {
    lines != [] ==>
      var before := lines[..|lines| - 1];
      WellFormed(before) && LineOk(Collect(before), HasUseMtl(before), lines[|lines| - 1])
  }

  function Initial(): (st: Loader)
    ensures Invariant(st)
  {
    Loader(Attributes([], [], []), VertexTable([], 0, map[]), 0, [], None, map[])
  }

  /** The loader after reading `lines` in order (lines 61-168). */
  function Run(lines: seq<ObjLine>, fs: FileSystem, filePath: string): (st: Loader)
    requires WellFormed(lines)
    ensures st.attrs == Collect(lines)
    ensures st.open.Some? <==> HasUseMtl(lines)
    ensures Invariant(st)
    decreases |lines|
  {
    if lines == [] then Initial()
    else Step(Run(lines[..|lines| - 1], fs, filePath), lines[|lines| - 1], fs, filePath)
  }

  /** Lines 170-173: the open submesh is pushed after the last line, behind
      the closed ones; a loader that kept its invariant gives a valid mesh. */
  function Finish(st: Loader): (m: Mesh)
    ensures m.vertices == st.table.vertices && m.numVertices == st.table.numVertices
    ensures m.numTriangles == st.numTriangles && m.materialMap == st.materialMap
    ensures |m.subMeshes| == |st.subMeshes| + (if st.open.Some? then 1 else 0)
    ensures m.subMeshes[..|st.subMeshes|] == st.subMeshes
    ensures st.open.Some? ==> m.subMeshes[|st.subMeshes|] == st.open.value
    ensures Invariant(st) ==> MeshValid(m)
  {
    var m := Mesh(st.table.vertices, PushOpen(st.subMeshes, st.open), st.materialMap,
                  st.table.numVertices, st.numTriangles);
    assert Invariant(st) ==> MeshValid(m) by {
      if Invariant(st) {
        PushOpenOk(st.subMeshes, st.open, st.table.numVertices, st.materialMap, st.materialMap);
      }
    }
    m
  }

  /** What every loaded mesh satisfies. */
  predicate MeshValid(m: Mesh)
  {
    && |m.vertices| == m.numVertices
    && (forall k :: 0 <= k < |m.subMeshes| ==> SubMeshOk(m.subMeshes[k], m.numVertices, m.materialMap))
    && 3 * m.numTriangles == TotalIndices(m.subMeshes)
  }

  function EmptyMesh(): Mesh
  {
    Mesh([], [], map[], 0, 0)
  }

  /** The model file a directory names can be read. */
  predicate Loadable(fs: FileSystem, filePath: string)
  {
    filePath != "" && (Paths.ObjPath(filePath) in fs.obj ==> WellFormed(fs.obj[Paths.ObjPath(filePath)]))
  }

  /** `LoadFromFile(filePath, normalized)` on a fresh mesh: the result is
      always true, and a file that does not open leaves the mesh empty. */
  function LoadFromFile(fs: FileSystem, filePath: string): (r: (bool, Mesh))
    requires Loadable(fs, filePath)
    ensures r.0
    ensures Paths.ObjPath(filePath) !in fs.obj ==> r.1 == EmptyMesh()
    ensures Paths.ObjPath(filePath) in fs.obj ==> r.1 == Finish(Run(fs.obj[Paths.ObjPath(filePath)], fs, filePath))
    ensures MeshValid(r.1)
  {
    var path := Paths.ObjPath(filePath);
    if path in fs.obj then (true, Finish(Run(fs.obj[path], fs, filePath)))
    else (true, EmptyMesh())
  }
}

=== FILE: vectors.dfy ===
/** The glm vectors the renderer works with, over the reals. */
module Vectors {

  datatype Vec3 = Vec3(x: real, y: real, z: real)

  datatype Vec2 = Vec2(u: real, v: real)

  const Zero: Vec3 := Vec3(0.0, 0.0, 0.0)

  /** glm's `a + b`. */
  function Add(a: Vec3, b: Vec3): Vec3
  {
    Vec3(a.x + b.x, a.y + b.y, a.z + b.z)
  }
}

=== FILE: viewer.dfy ===
/** `CG_HW3.cpp`: the viewer's global state and the logic of its keyboard
    callbacks and menus. The globals are one `Scene` record; a heap object
    is an `Obj` carrying the allocation number `new` gave it, so that a
    second pointer to the same object (the scene object's mesh, the two
    light visualizations) is that number. GL, GLUT and console calls are
    left out; `glPolygonMode` is kept as the mode it selects and `exit` as
    the status it ends the process with. */
module Viewer {

  import opened Options
  import opened Vectors
  import opened Lights
  import TriangleMesh

  // ----- the globals' initial values -----------------------------------

  /** The window size before the first `ReshapeCB`. */
  const InitialScreenWidth: int := 600
  const InitialScreenHeight: int := 600

  const DirLightDirection: Vec3 := Vec3(0.0, 0.0, -1.0)
  const DirLightRadiance: Vec3 := Vec3(0.6, 0.6, 0.6)
  const PointLightPosition: Vec3 := Vec3(0.8, 0.0, 0.8)
  const PointLightIntensity: Vec3 := Vec3(0.5, 0.1, 0.1)
  const SpotLightPosition: Vec3 := Vec3(0.0, 1.0, 0.0)
  const SpotLightDirection: Vec3 := Vec3(0.0, -1.0, 0.0)
  const SpotLightIntensity: Vec3 := Vec3(0.25, 0.25, 0.1)
  const SpotLightCutoffStartInDegree: real := 30.0
  const SpotLightTotalWidthInDegree: real := 45.0

  const CameraPos: Vec3 := Vec3(0.0, 1.0, 5.0)
  const CameraTarget: Vec3 := Vec3(0.0, 0.0, 0.0)
  const CameraUp: Vec3 := Vec3(0.0, 1.0, 0.0)
  const Fovy: real := 30.0
  const ZNear: real := 0.1
  const ZFar: real := 1000.0

  /** The speed every light-move key passes. */
  const LightMoveSpeed: real := 0.2
  /** The speed every skybox-rotate key passes. */
  const RotationSpeed: real := 1.0

  const SkyboxSlices: nat := 36
  const SkyboxStacks: nat := 18
  const SkyboxRadius: real := 50.0

  /** The models the path menu offers, entry `i` at index `i - 1`; the last
      one is also the model shown at start. */
  const ModelPaths: seq<string> := [
    "../TestModels_HW3/Ferrari",
    "../TestModels_HW3/Forklift",
    "../TestModels_HW3/Gengar",
    "../TestModels_HW3/Ivysaur",
    "../TestModels_HW3/Koffing",
    "../TestModels_HW3/MagikarpF",
    "../TestModels_HW3/Rose",
    "../TestModels_HW3/Slowbro",
    "../TestModels_HW3/TexCube"]

  const DefaultModelPath: string := "../TestModels_HW3/TexCube"

  /** The skybox textures the skybox menu offers; the first is shown at start. */
  const SkyPaths: seq<string> := [
    "../TestTextures_HW3/photostudio_02_2k.png",
    "../TestTextures_HW3/sunflowers_2k.png",
    "../TestTextures_HW3/veranda_2k.png"]

  const DefaultSkyPath: string := "../TestTextures_HW3/photostudio_02_2k.png"

  const FillColorVs: string := "shaders/fixed_color.vs"
  const FillColorFs: string := "shaders/fixed_color.fs"
  const PhongShadingVs: string := "shaders/phong_shading_demo.vs"
  const PhongShadingFs: string := "shaders/phong_shading_demo.fs"
  const SkyboxVs: string := "shaders/skybox.vs"
  const SkyboxFs: string := "shaders/skybox.fs"

  // ----- the state -----------------------------------------------------

  /** A heap object and the allocation number of the `new` that made it. */
  datatype Obj<T> = Obj(id: nat, value: T)

  /** The camera as the viewer configures it: `UpdateView` and
      `UpdateProjection` arguments. The aspect ratio is `None` when the
      float quotient it comes from is not a finite number. */
  datatype Camera = Camera(
    position: Vec3, target: Vec3, up: Vec3,
    fovy: real, aspectRatio: Option<real>, zNear: real, zFar: real)

  /** `(float)w / (float)h`, rounding aside: a height of zero gives an
      infinity or NaN, which is no aspect ratio at all. */
  function AspectRatio(w: int, h: int): (a: Option<real>)
    ensures a.None? <==> h == 0
    ensures a.Some? ==> a.value * (h as real) == w as real
  {
    if h == 0 then None else Some((w as real) / (h as real))
  }

  /** A shader program and the two files it was loaded from. */
  datatype ShaderProgram = ShaderProgram(vertexShader: string, fragmentShader: string)

  /** A skybox rotation request; what a rotation does to the sphere is
      not part of this model, so the skybox records the requests. */
  datatype Turn = TurnLeft(speed: real) | TurnRight(speed: real)

  datatype Skybox = Skybox(texture: string, numSlices: nat, numStacks: nat, radius: real, turns: seq<Turn>)

  datatype PolygonMode = PointMode | LineMode | FillMode

  /** Whether the process still runs, or the code it passed to `exit`. */
  datatype Status = Running | Exited(code: int)

  datatype Scene = Scene(
    mesh: Option<Obj<TriangleMesh.Mesh>>,
    dirLight: Option<Obj<DirectionalLight>>,
    pointLight: Option<Obj<PointLight>>,
    spotLight: Option<Obj<SpotLight>>,
    camera: Option<Obj<Camera>>,
    fillColorShader: Option<Obj<ShaderProgram>>,
    phongShadingShader: Option<Obj<ShaderProgram>>,
    skyboxShader: Option<Obj<ShaderProgram>>,
    skybox: Option<Obj<Skybox>>,
    // the objects `sceneObj.mesh`, `pointLightObj.light` and
    // `spotLightObj.light` point to
    sceneObjMesh: Option<nat>,
    pointLightObj: Option<nat>,
    spotLightObj: Option<nat>,
    screenWidth: int,
    screenHeight: int,
    lightingMode: int,
    polygonMode: PolygonMode,
    modelFilePath: string,
    skyFilePath: string,
    nextId: nat,
    status: Status)

  /** The globals before `main` runs: no object yet, a 600 by 600 window,
      lighting mode 0, the last model and the first skybox texture. */
  function InitialScene(): (s: Scene)
    ensures Released(s) && s.skybox.None? && s.nextId == 0 && s.status == Running
    ensures s.sceneObjMesh.None? && s.pointLightObj.None? && s.spotLightObj.None?
    ensures s.screenWidth == 600 && s.screenHeight == 600
    ensures s.lightingMode == 0 && s.polygonMode == FillMode
    ensures s.modelFilePath == ModelPaths[|ModelPaths| - 1] && s.skyFilePath == SkyPaths[0]
  {
    Scene(None, None, None, None, None, None, None, None, None, None, None, None,
          InitialScreenWidth, InitialScreenHeight, 0, FillMode, DefaultModelPath, DefaultSkyPath, 0, Running)
  }

  // ----- ReleaseResources ----------------------------------------------

  /** Every pointer `ReleaseResources` deletes is null. */
  predicate Released(s: Scene)
  {
    && s.mesh.None? && s.dirLight.None? && s.pointLight.None? && s.spotLight.None?
    && s.camera.None?
    && s.fillColorShader.None? && s.phongShadingShader.None? && s.skyboxShader.None?
  }

  /** `ReleaseResources`: deletes and nulls the mesh, the three lights, the
      camera and the three shaders. The skybox and the scene objects'
      pointers are not touched (the latter are left dangling). */
  function ReleaseResources(s: Scene): (r: Scene)
    ensures Released(r)
    ensures r.skybox == s.skybox
    ensures r.sceneObjMesh == s.sceneObjMesh
    ensures r.pointLightObj == s.pointLightObj && r.spotLightObj == s.spotLightObj
    ensures r.lightingMode == s.lightingMode && r.polygonMode == s.polygonMode
    ensures r.screenWidth == s.screenWidth && r.screenHeight == s.screenHeight
    ensures r.modelFilePath == s.modelFilePath && r.skyFilePath == s.skyFilePath
    ensures r.nextId == s.nextId && r.status == s.status
  {
    s.(mesh := None, dirLight := None, pointLight := None, spotLight := None,
       camera := None,
       fillColorShader := None, phongShadingShader := None, skyboxShader := None)
  }

  /** Releasing twice is releasing once, and a released scene is a fixed
      point. */
  lemma ReleaseIdempotent(s: Scene)
    ensures ReleaseResources(ReleaseResources(s)) == ReleaseResources(s)
    ensures Released(s) <==> ReleaseResources(s) == s
  {
  }

  // ----- SetupScene ----------------------------------------------------

  /** `LoadObjects(modelPath)`: a new mesh, loaded from the model directory
      and shown by the scene object. */
  function LoadObjects(s: Scene, fs: TriangleMesh.FileSystem, modelPath: string): (r: Scene)
    requires TriangleMesh.Loadable(fs, modelPath)
    ensures r.mesh.Some? && r.mesh.value.id == s.nextId && r.nextId == s.nextId + 1
    ensures r.mesh.value.value == TriangleMesh.LoadFromFile(fs, modelPath).1
    ensures TriangleMesh.MeshValid(r.mesh.value.value)
    ensures r.sceneObjMesh == Some(r.mesh.value.id)
    ensures r.(mesh := s.mesh, sceneObjMesh := s.sceneObjMesh, nextId := s.nextId) == s
  {
    var m := Obj(s.nextId, TriangleMesh.LoadFromFile(fs, modelPath).1);
    s.(mesh := Some(m), sceneObjMesh := Some(m.id), nextId := s.nextId + 1)
  }

  /** `CreateLights`: the directional, point and spot lights, in that
      order, from the globals' initial values; the two visualizations point
      to the point and the spot light. */
  function CreateLights(s: Scene): (r: Scene)
    ensures r.dirLight.Some? && r.pointLight.Some? && r.spotLight.Some?
    ensures s.nextId <= r.dirLight.value.id < r.pointLight.value.id < r.spotLight.value.id < r.nextId
    ensures r.dirLight.value.value == DirectionalLight(DirLightDirection, DirLightRadiance)
    ensures r.pointLight.value.value == PointLight(PointLightPosition, PointLightIntensity)
    ensures r.spotLight.value.value.light == PointLight(SpotLightPosition, SpotLightIntensity)
    ensures r.spotLight.value.value.direction == SpotLightDirection
    ensures GetFallofStartDegree(r.spotLight.value.value) == SpotLightCutoffStartInDegree
    ensures GetTotalWidthDegree(r.spotLight.value.value) == SpotLightTotalWidthInDegree
    ensures r.pointLightObj == Some(r.pointLight.value.id)
    ensures r.spotLightObj == Some(r.spotLight.value.id)
    ensures r.(dirLight := s.dirLight, pointLight := s.pointLight, spotLight := s.spotLight,
               pointLightObj := s.pointLightObj, spotLightObj := s.spotLightObj, nextId := s.nextId) == s
  {
    var n := s.nextId;
    var d := Obj(n, DirectionalLight(DirLightDirection, DirLightRadiance));
    var p := Obj(n + 1, PointLight(PointLightPosition, PointLightIntensity));
    var sp := Obj(n + 2, NewSpotLight(SpotLightPosition, SpotLightIntensity, SpotLightDirection,
                                      SpotLightCutoffStartInDegree, SpotLightTotalWidthInDegree));
    s.(dirLight := Some(d), pointLight := Some(p), pointLightObj := Some(p.id),
       spotLight := Some(sp), spotLightObj := Some(sp.id), nextId := n + 3)
  }

  /** `CreateCamera`: a camera looking from the initial position at the
      target, with the projection of the window's current size. */
  function CreateCamera(s: Scene): (r: Scene)
    ensures r.camera.Some? && r.camera.value.id == s.nextId && r.nextId == s.nextId + 1
    ensures r.camera.value.value.aspectRatio == AspectRatio(s.screenWidth, s.screenHeight)
    ensures r.camera.value.value.position == CameraPos && r.camera.value.value.target == CameraTarget
    ensures r.camera.value.value.up == CameraUp && r.camera.value.value.fovy == Fovy
    ensures r.camera.value.value.zNear == ZNear && r.camera.value.value.zFar == ZFar
    ensures r.(camera := s.camera, nextId := s.nextId) == s
  {
    var c := Camera(CameraPos, CameraTarget, CameraUp, Fovy,
                    AspectRatio(s.screenWidth, s.screenHeight), ZNear, ZFar);
    s.(camera := Some(Obj(s.nextId, c)), nextId := s.nextId + 1)
  }

  /** A program loads when both of its files do. */
  predicate Loads(p: ShaderProgram, shaders: set<string>)
  {
    p.vertexShader in shaders && p.fragmentShader in shaders
  }

  predicate ShadersLoad(shaders: set<string>)
  {
    && Loads(ShaderProgram(FillColorVs, FillColorFs), shaders)
    && Loads(ShaderProgram(PhongShadingVs, PhongShadingFs), shaders)
    && Loads(ShaderProgram(SkyboxVs, SkyboxFs), shaders)
  }

  /** `CreateShaderLib`: the fill-colour, Phong and skybox programs in that
      order; `shaders` are the files that load. A program that fails to
      load ends the process with code 1 right after it is assigned. */
  function CreateShaderLib(s: Scene, shaders: set<string>): (r: Scene)
    ensures ShadersLoad(shaders) ==> r.status == s.status
    ensures !ShadersLoad(shaders) ==> r.status == Exited(1)
    ensures ShadersLoad(shaders) ==>
      && r.fillColorShader.Some? && r.phongShadingShader.Some? && r.skyboxShader.Some?
      && s.nextId <= r.fillColorShader.value.id < r.phongShadingShader.value.id
         < r.skyboxShader.value.id < r.nextId
    ensures r.fillColorShader.Some?
    ensures r.(fillColorShader := s.fillColorShader, phongShadingShader := s.phongShadingShader,
               skyboxShader := s.skyboxShader, nextId := s.nextId, status := s.status) == s
  {
    var fill := ShaderProgram(FillColorVs, FillColorFs);
    var s1 := s.(fillColorShader := Some(Obj(s.nextId, fill)), nextId := s.nextId + 1);
    if !Loads(fill, shaders) then s1.(status := Exited(1)) else
    var phong := ShaderProgram(PhongShadingVs, PhongShadingFs);
    var s2 := s1.(phongShadingShader := Some(Obj(s1.nextId, phong)), nextId := s1.nextId + 1);
    if !Loads(phong, shaders) then s2.(status := Exited(1)) else
    var sky := ShaderProgram(SkyboxVs, SkyboxFs);
    var s3 := s2.(skyboxShader := Some(Obj(s2.nextId, sky)), nextId := s2.nextId + 1);
    if !Loads(sky, shaders) then s3.(status := Exited(1)) else s3
  }

  /** Every object the scene set-up creates is live. */
  predicate Live(s: Scene)
  {
    && s.mesh.Some? && s.dirLight.Some? && s.pointLight.Some? && s.spotLight.Some?
    && s.camera.Some?
    && s.fillColorShader.Some? && s.phongShadingShader.Some? && s.skyboxShader.Some?
  }

  /** `CreateLights` then `CreateCamera`. */
  function LightsAndCamera(s: Scene): (r: Scene)
    ensures r.dirLight.Some? && r.pointLight.Some? && r.spotLight.Some? && r.camera.Some?
    ensures s.nextId <= r.dirLight.value.id < r.pointLight.value.id
            < r.spotLight.value.id < r.camera.value.id < r.nextId
    ensures r.pointLightObj == Some(r.pointLight.value.id)
    ensures r.spotLightObj == Some(r.spotLight.value.id)
    ensures r.dirLight.value.value == DirectionalLight(DirLightDirection, DirLightRadiance)
    ensures r.pointLight.value.value == PointLight(PointLightPosition, PointLightIntensity)
    ensures r.spotLight.value.value == NewSpotLight(SpotLightPosition, SpotLightIntensity, SpotLightDirection,
                                                    SpotLightCutoffStartInDegree, SpotLightTotalWidthInDegree)
    ensures r.camera.value.value.aspectRatio == AspectRatio(s.screenWidth, s.screenHeight)
    ensures r.(dirLight := s.dirLight, pointLight := s.pointLight, spotLight := s.spotLight,
               pointLightObj := s.pointLightObj, spotLightObj := s.spotLightObj,
               camera := s.camera, nextId := s.nextId) == s
  {
    CreateCamera(CreateLights(s))
  }

  /** `SetupScene(modelFilePath)`: `LoadObjects`, `CreateLights`,
      `CreateCamera`, `CreateShaderLib`, in that order, so the objects'
      allocation numbers increase in that order. */
  function SetupScene(s: Scene, fs: TriangleMesh.FileSystem, shaders: set<string>, modelPath: string): (r: Scene)
    requires TriangleMesh.Loadable(fs, modelPath)
    ensures r.mesh.Some? && r.dirLight.Some? && r.pointLight.Some? && r.spotLight.Some? && r.camera.Some?
    ensures s.nextId <= r.mesh.value.id < r.dirLight.value.id < r.pointLight.value.id
            < r.spotLight.value.id < r.camera.value.id < r.nextId
    ensures ShadersLoad(shaders) ==> Live(r) && r.camera.value.id < r.fillColorShader.value.id
    ensures ShadersLoad(shaders) ==> r.status == s.status
    ensures !ShadersLoad(shaders) ==> r.status == Exited(1)
    ensures r.mesh.value.value == TriangleMesh.LoadFromFile(fs, modelPath).1
    ensures TriangleMesh.MeshValid(r.mesh.value.value)
    ensures r.sceneObjMesh == Some(r.mesh.value.id)
    ensures r.pointLightObj == Some(r.pointLight.value.id)
    ensures r.spotLightObj == Some(r.spotLight.value.id)
    ensures r.dirLight.value.value == DirectionalLight(DirLightDirection, DirLightRadiance)
    ensures r.pointLight.value.value == PointLight(PointLightPosition, PointLightIntensity)
    ensures r.spotLight.value.value == NewSpotLight(SpotLightPosition, SpotLightIntensity, SpotLightDirection,
                                                    SpotLightCutoffStartInDegree, SpotLightTotalWidthInDegree)
    ensures r.camera.value.value.aspectRatio == AspectRatio(s.screenWidth, s.screenHeight)
    ensures r.skybox == s.skybox
    ensures r.lightingMode == s.lightingMode && r.polygonMode == s.polygonMode
    ensures r.screenWidth == s.screenWidth && r.screenHeight == s.screenHeight
    ensures r.modelFilePath == s.modelFilePath && r.skyFilePath == s.skyFilePath
  {
    CreateShaderLib(LightsAndCamera(LoadObjects(s, fs, modelPath)), shaders)
  }

  /** `CreateSkybox(texFilePath)`: a new, unrotated skybox with 36 slices,
      18 stacks and radius 50. */
  function CreateSkybox(s: Scene, texFilePath: string): (r: Scene)
    ensures r.skybox.Some? && r.skybox.value.id == s.nextId && r.nextId == s.nextId + 1
    ensures r.skybox.value.value.texture == texFilePath && r.skybox.value.value.turns == []
    ensures r.(skybox := s.skybox, nextId := s.nextId) == s
  {
    s.(skybox := Some(Obj(s.nextId, Skybox(texFilePath, SkyboxSlices, SkyboxStacks, SkyboxRadius, []))),
       nextId := s.nextId + 1)
  }

  /** `main` from the initial globals: the scene, then the skybox (which
      is not reached when the shader set-up exits). */
  function Startup(fs: TriangleMesh.FileSystem, shaders: set<string>): (r: Scene)
    requires TriangleMesh.Loadable(fs, DefaultModelPath)
    ensures r.status.Running? <==> ShadersLoad(shaders)
    ensures r.status.Running? ==> Live(r) && r.skybox.Some? && r.skybox.value.value.texture == DefaultSkyPath
    ensures r.mesh.Some? && r.mesh.value.value == TriangleMesh.LoadFromFile(fs, DefaultModelPath).1
    ensures r.camera.Some? && r.camera.value.value.aspectRatio == Some(1.0)
    ensures r.lightingMode == 0 && r.modelFilePath == DefaultModelPath
  {
    var s := SetupScene(InitialScene(), fs, shaders, DefaultModelPath);
    if s.status.Running? then CreateSkybox(s, s.skyFilePath) else s
  }

  // ----- ReshapeCB ----------------------------------------------------

  /** `ReshapeCB(w, h)`: records the new window size and gives the camera
      the projection for it (the camera is dereferenced unchecked). */
  function Reshape(s: Scene, w: int, h: int): (r: Scene)
    requires s.camera.Some?
    ensures r.screenWidth == w && r.screenHeight == h
    ensures r.camera.Some? && r.camera.value.id == s.camera.value.id
    ensures r.camera.value.value.aspectRatio == AspectRatio(w, h)
    ensures r.camera.value.value.(aspectRatio := s.camera.value.value.aspectRatio) == s.camera.value.value
    ensures r.(screenWidth := s.screenWidth, screenHeight := s.screenHeight, camera := s.camera) == s
  {
    var o := s.camera.value;
    s.(screenWidth := w, screenHeight := h,
       camera := Some(o.(value := o.value.(aspectRatio := AspectRatio(w, h)))))
  }

  /** The last resize decides the window and the projection. */
  lemma ReshapeLastWins(s: Scene, w1: int, h1: int, w2: int, h2: int)
    requires s.camera.Some?
    ensures Reshape(Reshape(s, w1, h1), w2, h2) == Reshape(s, w2, h2)
  {
  }

  /** A model chosen after a resize gets a camera with the resized
      window's projection, not the initial one. */
  lemma RebuildKeepsProjection(s: Scene, fs: TriangleMesh.FileSystem, shaders: set<string>, index: int, w: int, h: int)
    requires s.camera.Some?
    requires TriangleMesh.Loadable(fs, SelectedModelPath(index, s.modelFilePath))
    ensures PathMenu(Reshape(s, w, h), fs, shaders, index).camera.value.value.aspectRatio == AspectRatio(w, h)
  {
  }

  // ----- ProcessSpecialKeysCB ------------------------------------------

  datatype SpecialKey = F1 | F2 | F3 | F4 | ArrowLeft | ArrowRight | ArrowUp | ArrowDown
                      | OtherSpecial(code: int)

  /** GLUT's codes for the keys the callback handles: `GLUT_KEY_F1` to
      `GLUT_KEY_F4` are 1 to 4, and `GLUT_KEY_LEFT`, `UP`, `RIGHT`, `DOWN`
      are 100 to 103. */
  const HandledCodes: set<int> := {1, 2, 3, 4, 100, 101, 102, 103}

  /** The key a code passed to `ProcessSpecialKeysCB` names. */
  function SpecialKeyOf(code: int): (k: SpecialKey)
    ensures k.OtherSpecial? <==> code !in HandledCodes
    ensures k.OtherSpecial? ==> k.code == code
  {
    if code == 1 then F1
    else if code == 2 then F2
    else if code == 3 then F3
    else if code == 4 then F4
    else if code == 100 then ArrowLeft
    else if code == 101 then ArrowUp
    else if code == 102 then ArrowRight
    else if code == 103 then ArrowDown
    else OtherSpecial(code)
  }

  /** The code of a key. */
  function KeyCode(k: SpecialKey): int
  {
    match k
    case F1 => 1
    case F2 => 2
    case F3 => 3
    case F4 => 4
    case ArrowLeft => 100
    case ArrowUp => 101
    case ArrowRight => 102
    case ArrowDown => 103
    case OtherSpecial(c) => c
  }

  /** Decoding loses nothing, and every key the callback handles, or any
      other code, decodes back from its code. */
  lemma SpecialKeyCodes(code: int, k: SpecialKey)
    ensures KeyCode(SpecialKeyOf(code)) == code
    ensures (!k.OtherSpecial? || k.code !in HandledCodes) ==> SpecialKeyOf(KeyCode(k)) == k
  {
  }

  /** C's `a % b` for `b > 0`: the remainder takes the sign of `a`. */
  function CRem(a: int, b: int): (r: int)
    requires b > 0
    ensures a >= 0 ==> 0 <= r < b
    ensures a < 0 ==> -b < r <= 0
  {
    if a >= 0 then a % b else -((-a) % b)
  }

  /** The C remainder by four differs from its argument by a multiple of
      four, and agrees with the Euclidean one on non-negative arguments. */
  lemma CRemFour(a: int)
    ensures (a - CRem(a, 4)) % 4 == 0
    ensures a >= 0 ==> CRem(a, 4) == a % 4
  {
  }

  /** Moves the point light, if there is one, at the light-move speed. */
  function MovePointLight(s: Scene, m: Move): (r: Scene)
    ensures r.(pointLight := s.pointLight) == s
    ensures s.pointLight.None? ==> r == s
    ensures s.pointLight.Some? ==>
      && r.pointLight.Some? && r.pointLight.value.id == s.pointLight.value.id
      && r.pointLight.value.value == MovePoint(s.pointLight.value.value, m, LightMoveSpeed)
  {
    match s.pointLight
    case None => s
    case Some(o) => s.(pointLight := Some(o.(value := MovePoint(o.value, m, LightMoveSpeed))))
  }

  /** Moving the point light back the other way restores the scene. */
  lemma MovePointLightUndone(s: Scene, m: Move)
    ensures MovePointLight(MovePointLight(s, m), Opposite(m)) == s
  {
    if s.pointLight.Some? {
      MoveUndone(s.pointLight.value.value, m, LightMoveSpeed);
    }
  }

  /** `ProcessSpecialKeysCB`: F1, F2 and F3 select the polygon mode, F4
      advances the lighting mode, the arrows move the point light. Nothing
      else in the scene changes, and the lighting mode stays one of the
      four. */
  function ProcessSpecialKey(s: Scene, key: SpecialKey): (r: Scene)
    ensures r.(pointLight := s.pointLight, polygonMode := s.polygonMode, lightingMode := s.lightingMode) == s
    ensures 0 <= s.lightingMode < 4 ==> 0 <= r.lightingMode < 4
  {
    match key
    case F1 => s.(polygonMode := PointMode)
    case F2 => s.(polygonMode := LineMode)
    case F3 => s.(polygonMode := FillMode)
    case F4 => s.(lightingMode := CRem(s.lightingMode + 1, 4))
    case ArrowLeft => MovePointLight(s, Left)
    case ArrowRight => MovePointLight(s, Right)
    case ArrowUp => MovePointLight(s, Up)
    case ArrowDown => MovePointLight(s, Down)
    case OtherSpecial(_) => s
  }

  /** F1, F2 and F3 select the point, line and fill polygon modes and
      change nothing else; any other special key keeps the polygon mode. */
  lemma PolygonModeKeys(s: Scene, key: SpecialKey)
    ensures ProcessSpecialKey(s, F1) == s.(polygonMode := PointMode)
    ensures ProcessSpecialKey(s, F2) == s.(polygonMode := LineMode)
    ensures ProcessSpecialKey(s, F3) == s.(polygonMode := FillMode)
    ensures key !in {F1, F2, F3} ==> ProcessSpecialKey(s, key).polygonMode == s.polygonMode
  {
  }

  /** F4 changes the lighting mode only: to the next one, wrapping from 3
      to 0, for a mode in range; for a negative mode, C's remainder keeps
      the result at or below zero. */
  lemma LightingModeKey(s: Scene)
    ensures ProcessSpecialKey(s, F4).(lightingMode := s.lightingMode) == s
    ensures 0 <= s.lightingMode < 3 ==> ProcessSpecialKey(s, F4).lightingMode == s.lightingMode + 1
    ensures s.lightingMode == 3 ==> ProcessSpecialKey(s, F4).lightingMode == 0
    ensures s.lightingMode < 0 ==> -4 < ProcessSpecialKey(s, F4).lightingMode <= 0
  {
  }

  /** Four presses of F4 bring a mode in range back to where it was, and
      every press in between keeps it in range. */
  lemma FourPressesCycle(s: Scene)
    requires 0 <= s.lightingMode < 4
    ensures var s1 := ProcessSpecialKey(s, F4);
            var s2 := ProcessSpecialKey(s1, F4);
            var s3 := ProcessSpecialKey(s2, F4);
            && 0 <= s1.lightingMode < 4
            && 0 <= s2.lightingMode < 4
            && 0 <= s3.lightingMode < 4
            && s1.lightingMode != s.lightingMode
            && ProcessSpecialKey(s3, F4) == s
  {
  }

  /** The arrows move the point light, when there is one, and change
      nothing else; without a point light they do nothing. The light keeps
      its identity and its intensity. */
  lemma ArrowKeys(s: Scene, key: SpecialKey)
    requires key in {ArrowLeft, ArrowRight, ArrowUp, ArrowDown}
    ensures var r := ProcessSpecialKey(s, key);
      && r.(pointLight := s.pointLight) == s
      && (s.pointLight.None? ==> r == s)
      && (s.pointLight.Some? ==>
            && r.pointLight.Some? && r.pointLight.value.id == s.pointLight.value.id
            && r.pointLight.value.value.intensity == s.pointLight.value.value.intensity)
  {
  }

  /** The arrows move the point light by 0.1 times the light-move speed
      along one axis: left and right along x, up and down along y. */
  lemma ArrowMoves(s: Scene)
    requires s.pointLight.Some?
    ensures var p := s.pointLight.value.value.position;
      && ProcessSpecialKey(s, ArrowLeft).pointLight.value.value.position == Vec3(p.x - 0.02, p.y, p.z)
      && ProcessSpecialKey(s, ArrowRight).pointLight.value.value.position == Vec3(p.x + 0.02, p.y, p.z)
      && ProcessSpecialKey(s, ArrowUp).pointLight.value.value.position == Vec3(p.x, p.y + 0.02, p.z)
      && ProcessSpecialKey(s, ArrowDown).pointLight.value.value.position == Vec3(p.x, p.y - 0.02, p.z)
  {
  }

  /** An arrow followed by the opposite arrow leaves the scene as it was. */
  lemma ArrowsUndo(s: Scene)
    ensures ProcessSpecialKey(ProcessSpecialKey(s, ArrowLeft), ArrowRight) == s
    ensures ProcessSpecialKey(ProcessSpecialKey(s, ArrowUp), ArrowDown) == s
  {
    MovePointLightUndone(s, Left);
    MovePointLightUndone(s, Up);
  }

  /** A code the callback does not handle does nothing. */
  lemma OtherSpecialKeys(s: Scene, code: int)
    requires code !in HandledCodes
    ensures ProcessSpecialKey(s, SpecialKeyOf(code)) == s
  {
  }

  // ----- ProcessKeysCB -------------------------------------------------

  const Escape: char := 27 as char

  /** Moves the spot light, if there is one, at the light-move speed. */
  function MoveSpotLight(s: Scene, m: Move): (r: Scene)
    ensures r.(spotLight := s.spotLight) == s
    ensures s.spotLight.None? ==> r == s
    ensures s.spotLight.Some? ==>
      && r.spotLight.Some? && r.spotLight.value.id == s.spotLight.value.id
      && r.spotLight.value.value == MoveSpot(s.spotLight.value.value, m, LightMoveSpeed)
  {
    match s.spotLight
    case None => s
    case Some(o) => s.(spotLight := Some(o.(value := MoveSpot(o.value, m, LightMoveSpeed))))
  }

  /** Moving the spot light back the other way restores the scene. */
  lemma MoveSpotLightUndone(s: Scene, m: Move)
    ensures MoveSpotLight(MoveSpotLight(s, m), Opposite(m)) == s
  {
    if s.spotLight.Some? {
      MoveUndone(s.spotLight.value.value.light, m, LightMoveSpeed);
    }
  }

  /** Adds a rotation request to the skybox, if there is one. */
  function RotateSkybox(s: Scene, t: Turn): (r: Scene)
    ensures r.(skybox := s.skybox) == s
    ensures s.skybox.None? ==> r == s
    ensures s.skybox.Some? ==>
      && r.skybox.Some? && r.skybox.value.id == s.skybox.value.id
      && r.skybox.value.value.texture == s.skybox.value.value.texture
      && r.skybox.value.value.turns == s.skybox.value.value.turns + [t]
  {
    match s.skybox
    case None => s
    case Some(o) => s.(skybox := Some(o.(value := o.value.(turns := o.value.turns + [t]))))
  }

  /** `ProcessKeysCB`: Escape releases the resources and exits with code 0;
      any other key can change only the spot light and the skybox. */
  function ProcessKey(s: Scene, key: char): (r: Scene)
    ensures key == Escape ==> Released(r) && r.status == Exited(0)
    ensures key == Escape ==>
      && r.skybox == s.skybox && r.sceneObjMesh == s.sceneObjMesh
      && r.pointLightObj == s.pointLightObj && r.spotLightObj == s.spotLightObj
      && r.lightingMode == s.lightingMode && r.nextId == s.nextId
    ensures key != Escape ==> r.(spotLight := s.spotLight, skybox := s.skybox) == s
  {
    if key == Escape then ReleaseResources(s).(status := Exited(0))
    else if key == 'a' then MoveSpotLight(s, Left)
    else if key == 'd' then MoveSpotLight(s, Right)
    else if key == 'w' then MoveSpotLight(s, Up)
    else if key == 's' then MoveSpotLight(s, Down)
    else if key == 'z' then RotateSkybox(s, TurnLeft(RotationSpeed))
    else if key == 'c' then RotateSkybox(s, TurnRight(RotationSpeed))
    else s
  }

  /** `a`, `d`, `w` and `s` move the spot light, when there is one, and
      change nothing else; the light keeps its identity, its direction and
      its two angles. */
  lemma SpotLightKeys(s: Scene, key: char)
    requires key == 'a' || key == 'd' || key == 'w' || key == 's'
    ensures var r := ProcessKey(s, key);
      && r.(spotLight := s.spotLight) == s
      && (s.spotLight.None? ==> r == s)
      && (s.spotLight.Some? ==>
            && r.spotLight.Some? && r.spotLight.value.id == s.spotLight.value.id
            && r.spotLight.value.value.direction == s.spotLight.value.value.direction
            && GetFallofStartDegree(r.spotLight.value.value) == GetFallofStartDegree(s.spotLight.value.value)
            && GetTotalWidthDegree(r.spotLight.value.value) == GetTotalWidthDegree(s.spotLight.value.value))
  {
  }

  /** The spot-light keys undo each other as the arrows do. */
  lemma SpotKeysUndo(s: Scene)
    ensures ProcessKey(ProcessKey(s, 'a'), 'd') == s
    ensures ProcessKey(ProcessKey(s, 'w'), 's') == s
  {
    MoveSpotLightUndone(s, Left);
    MoveSpotLightUndone(s, Up);
  }

  /** `z` and `c` ask the skybox, when there is one, to turn left and right
      at the rotation speed, and change nothing else. */
  lemma SkyboxKeys(s: Scene, key: char)
    requires key == 'z' || key == 'c'
    ensures var r := ProcessKey(s, key);
      && r.(skybox := s.skybox) == s
      && (s.skybox.None? ==> r == s)
      && (s.skybox.Some? ==>
            && r.skybox.Some? && r.skybox.value.id == s.skybox.value.id
            && r.skybox.value.value.texture == s.skybox.value.value.texture
            && r.skybox.value.value.turns ==
               s.skybox.value.value.turns + [if key == 'z' then TurnLeft(RotationSpeed) else TurnRight(RotationSpeed)])
  {
  }

  /** Any other key does nothing. */
  lemma OtherKeys(s: Scene, key: char)
    requires key != Escape && key !in "adwszc"
    ensures ProcessKey(s, key) == s
  {
  }

  // ----- menus ---------------------------------------------------------

  /** The direction `DirectionMenu(index)` selects, for `index` in 1..10. */
  function DirectionPreset(index: int): Vec3
    requires 1 <= index <= 10
  {
    match index
    case 1 => Vec3(0.0, 0.0, -1.0)
    case 2 => Vec3(-1.0, 0.0, -1.0)
    case 3 => Vec3(-1.0, 0.0, 0.0)
    case 4 => Vec3(-1.0, 0.0, 1.0)
    case 5 => Vec3(0.0, 0.0, 1.0)
    case 6 => Vec3(1.0, 0.0, 1.0)
    case 7 => Vec3(1.0, 0.0, 0.0)
    case 8 => Vec3(1.0, 0.0, -1.0)
    case 9 => Vec3(0.0, 1.0, 0.0)
    case _ => Vec3(0.0, -1.0, 0.0)
  }

  /** The vector pointing the other way. */
  function Negate(v: Vec3): Vec3
  {
    Vec3(-v.x, -v.y, -v.z)
  }

  /** The eight horizontal presets go round the compass from the front in
      eighth turns: entry `i + 4` is the opposite of entry `i`. Entries 9
      and 10 are straight up and straight down. */
  lemma PresetsOpposite(i: int)
    requires 1 <= i <= 4
    ensures DirectionPreset(i).y == 0.0 && DirectionPreset(i + 4).y == 0.0
    ensures DirectionPreset(i).x != 0.0 || DirectionPreset(i).z != 0.0
    ensures DirectionPreset(i + 4) == Negate(DirectionPreset(i))
    ensures DirectionPreset(10) == Negate(DirectionPreset(9)) && DirectionPreset(9) == Vec3(0.0, 1.0, 0.0)
  {
  }

  /** `DirectionMenu(index)`: entries 1 to 10 set the directional light's
      direction to their preset (dereferencing the light); any other index
      does nothing. */
  function DirectionMenu(s: Scene, index: int): (r: Scene)
    requires 1 <= index <= 10 ==> s.dirLight.Some?
    ensures 1 <= index <= 10 ==>
      && r.dirLight.Some? && r.dirLight.value.id == s.dirLight.value.id
      && r.dirLight.value.value.radiance == s.dirLight.value.value.radiance
      && r.(dirLight := s.dirLight) == s
    ensures 1 <= index <= 10 ==> r.dirLight.value.value.direction == DirectionPreset(index)
    ensures !(1 <= index <= 10) ==> r == s
  {
    if 1 <= index <= 10 then
      var o := s.dirLight.value;
      s.(dirLight := Some(o.(value := SetDirection(o.value, DirectionPreset(index)))))
    else s
  }

  /** Choosing a direction twice is choosing it once; the last choice wins. */
  lemma DirectionMenuLastWins(s: Scene, i: int, j: int)
    requires s.dirLight.Some? && 1 <= i <= 10 && 1 <= j <= 10
    ensures DirectionMenu(DirectionMenu(s, i), j) == DirectionMenu(s, j)
  {
  }

  /** The path `PathMenu(index)` leaves in `modelFilePath`: entries 1 to 9
      choose their model, any other index keeps the current one. */
  function SelectedModelPath(index: int, current: string): (p: string)
    ensures 1 <= index <= 9 ==> p == ModelPaths[index - 1]
    ensures !(1 <= index <= 9) ==> p == current
  {
    if 1 <= index <= 9 then ModelPaths[index - 1] else current
  }

  /** The model files every menu entry can load. */
  predicate Ready(fs: TriangleMesh.FileSystem)
  {
    forall k :: 0 <= k < |ModelPaths| ==> TriangleMesh.Loadable(fs, ModelPaths[k])
  }

  /** `PathMenu(index)`: releases the resources, selects the model and sets
      the whole scene up again from it; the skybox, the lighting mode and
      the polygon mode survive. */
  function PathMenu(s: Scene, fs: TriangleMesh.FileSystem, shaders: set<string>, index: int): (r: Scene)
    requires TriangleMesh.Loadable(fs, SelectedModelPath(index, s.modelFilePath))
    ensures r.modelFilePath == SelectedModelPath(index, s.modelFilePath)
    ensures ShadersLoad(shaders) ==> Live(r) && r.status == s.status
    ensures !ShadersLoad(shaders) ==> r.status == Exited(1)
    ensures r.mesh.Some? && r.dirLight.Some? && r.pointLight.Some? && r.spotLight.Some? && r.camera.Some?
    ensures s.nextId <= r.mesh.value.id < r.dirLight.value.id < r.pointLight.value.id
            < r.spotLight.value.id < r.camera.value.id < r.nextId
    ensures r.mesh.value.value == TriangleMesh.LoadFromFile(fs, SelectedModelPath(index, s.modelFilePath)).1
    ensures r.sceneObjMesh == Some(r.mesh.value.id)
    ensures r.dirLight.value.value == DirectionalLight(DirLightDirection, DirLightRadiance)
    ensures r.pointLight.value.value == PointLight(PointLightPosition, PointLightIntensity)
    ensures r.spotLight.value.value == NewSpotLight(SpotLightPosition, SpotLightIntensity, SpotLightDirection,
                                                    SpotLightCutoffStartInDegree, SpotLightTotalWidthInDegree)
    ensures r.pointLightObj == Some(r.pointLight.value.id) && r.spotLightObj == Some(r.spotLight.value.id)
    ensures r.camera.value.value.aspectRatio == AspectRatio(s.screenWidth, s.screenHeight)
    ensures ShadersLoad(shaders) ==> r.camera.value.id < r.fillColorShader.value.id
    ensures r.skybox == s.skybox && r.skyFilePath == s.skyFilePath
    ensures r.lightingMode == s.lightingMode && r.polygonMode == s.polygonMode
    ensures r.screenWidth == s.screenWidth && r.screenHeight == s.screenHeight
  {
    var path := SelectedModelPath(index, s.modelFilePath);
    SetupScene(ReleaseResources(s).(modelFilePath := path), fs, shaders, path)
  }

  /** What `PathMenu` builds does not depend on whether the resources were
      released before. */
  lemma PathMenuAfterRelease(s: Scene, fs: TriangleMesh.FileSystem, shaders: set<string>, index: int)
    requires TriangleMesh.Loadable(fs, SelectedModelPath(index, s.modelFilePath))
    ensures PathMenu(ReleaseResources(s), fs, shaders, index) == PathMenu(s, fs, shaders, index)
  {
    ReleaseIdempotent(s);
  }

  /** Moving the lights and then choosing a model gives the scene that
      choosing the model alone gives: the new lights start from the initial
      values again. */
  lemma PathMenuForgetsMoves(s: Scene, fs: TriangleMesh.FileSystem, shaders: set<string>, index: int, m: Move)
    requires TriangleMesh.Loadable(fs, SelectedModelPath(index, s.modelFilePath))
    ensures PathMenu(MovePointLight(s, m), fs, shaders, index) == PathMenu(s, fs, shaders, index)
    ensures PathMenu(MoveSpotLight(s, m), fs, shaders, index) == PathMenu(s, fs, shaders, index)
  {
    assert ReleaseResources(MovePointLight(s, m)) == ReleaseResources(s);
    assert ReleaseResources(MoveSpotLight(s, m)) == ReleaseResources(s);
  }

  /** The texture `SkyboxPathMenu(index)` leaves in `skyFilePath`. */
  function SelectedSkyPath(index: int, current: string): (p: string)
    ensures 1 <= index <= 3 ==> p == SkyPaths[index - 1]
    ensures !(1 <= index <= 3) ==> p == current
  {
    if 1 <= index <= 3 then SkyPaths[index - 1] else current
  }

  /** `SkyboxPathMenu(index)`: deletes the skybox, selects the texture and
      creates a new, unrotated skybox from it, whatever the index. Nothing
      else changes. */
  function SkyboxPathMenu(s: Scene, index: int): (r: Scene)
    ensures r.skyFilePath == SelectedSkyPath(index, s.skyFilePath)
    ensures r.skybox.Some? && r.skybox.value.id == s.nextId && r.nextId == s.nextId + 1
    ensures r.skybox.value.value.texture == r.skyFilePath && r.skybox.value.value.turns == []
    ensures r.(skybox := s.skybox, skyFilePath := s.skyFilePath, nextId := s.nextId) == s
  {
    var path := SelectedSkyPath(index, s.skyFilePath);
    CreateSkybox(s.(skybox := None, skyFilePath := path), path)
  }

  /** The skybox menu throws the rotations away and keeps the texture when
      the index is not an entry. */
  lemma SkyboxMenuResets(s: Scene, index: int)
    requires s.skybox.Some? && s.skybox.value.value.texture == s.skyFilePath
    requires !(1 <= index <= 3)
    ensures SkyboxPathMenu(s, index).skybox.value.value.texture == s.skybox.value.value.texture
    ensures SkyboxPathMenu(s, index).skybox.value.value.turns == []
  {
  }

  // ----- a session -----------------------------------------------------

  /** One event the viewer handles. */
  datatype Command =
    | SpecialKeyPressed(code: int)
    | KeyPressed(key: char)
    | WindowResized(width: int, height: int)
    | DirectionChosen(direction: int)
    | ModelChosen(model: int)
    | SkyboxChosen(skybox: int)

  /** What holds between events of a session: the lighting mode is one of
      the four, the model is a menu entry, the scene object and the two
      visualizations show the live mesh and lights, the mesh is valid, and
      a running process has every object. */
  predicate Inv(s: Scene)
  {
    && 0 <= s.lightingMode < 4
    && s.modelFilePath in ModelPaths
    && (s.mesh.Some? ==> TriangleMesh.MeshValid(s.mesh.value.value) && s.sceneObjMesh == Some(s.mesh.value.id))
    && (s.pointLight.Some? ==> s.pointLightObj == Some(s.pointLight.value.id))
    && (s.spotLight.Some? ==> s.spotLightObj == Some(s.spotLight.value.id))
    && (s.camera.Some? ==> s.camera.value.value.aspectRatio == AspectRatio(s.screenWidth, s.screenHeight))
    && (s.status.Running? ==> Live(s) && s.skybox.Some?)
  }

  /** The process starts in a state that satisfies the invariant. */
  lemma StartupInv(fs: TriangleMesh.FileSystem, shaders: set<string>)
    requires Ready(fs)
    ensures TriangleMesh.Loadable(fs, DefaultModelPath)
    ensures Inv(Startup(fs, shaders))
  {
    assert ModelPaths[8] == DefaultModelPath;
  }

  /** The callback an event reaches; after `exit` nothing happens. */
  function Apply(s: Scene, fs: TriangleMesh.FileSystem, shaders: set<string>, c: Command): (r: Scene)
    requires Ready(fs) && Inv(s)
    ensures Inv(r)
    ensures !s.status.Running? ==> r == s
    ensures r.status.Running? ==> s.status.Running?
  {
    if !s.status.Running? then s else
    match c
    case SpecialKeyPressed(code) => SpecialKeyInv(s, SpecialKeyOf(code)); ProcessSpecialKey(s, SpecialKeyOf(code))
    case KeyPressed(k) => KeyInv(s, k); ProcessKey(s, k)
    case WindowResized(w, h) => ReshapeInv(s, w, h); Reshape(s, w, h)
    case DirectionChosen(i) => DirectionInv(s, i); DirectionMenu(s, i)
    case ModelChosen(i) => PathMenuInv(s, fs, shaders, i); PathMenu(s, fs, shaders, i)
    case SkyboxChosen(i) => SkyboxMenuInv(s, i); SkyboxPathMenu(s, i)
  }

  /** The special-key callback keeps the invariant. */
  lemma SpecialKeyInv(s: Scene, key: SpecialKey)
    requires Inv(s) && s.status.Running?
    ensures Inv(ProcessSpecialKey(s, key))
  {
  }

  /** The keyboard callback keeps the invariant; only Esc stops the loop. */
  lemma KeyInv(s: Scene, key: char)
    requires Inv(s) && s.status.Running?
    ensures Inv(ProcessKey(s, key))
  {
  }

  /** A resize keeps the invariant: the projection follows the window. */
  lemma ReshapeInv(s: Scene, w: int, h: int)
    requires Inv(s) && s.status.Running?
    ensures s.camera.Some?
    ensures Inv(Reshape(s, w, h))
  {
  }

  /** The direction menu keeps the invariant. */
  lemma DirectionInv(s: Scene, index: int)
    requires Inv(s) && s.status.Running?
    ensures Inv(DirectionMenu(s, index))
  {
  }

  /** The model menu keeps the invariant: the scene it rebuilds loads one
      of the listed models. */
  lemma PathMenuInv(s: Scene, fs: TriangleMesh.FileSystem, shaders: set<string>, index: int)
    requires Ready(fs) && Inv(s) && s.status.Running?
    ensures SelectedModelPath(index, s.modelFilePath) in ModelPaths
    ensures Inv(PathMenu(s, fs, shaders, index))
  {
    assert SelectedModelPath(index, s.modelFilePath) in ModelPaths;
  }

  /** The skybox menu keeps the invariant. */
  lemma SkyboxMenuInv(s: Scene, index: int)
    requires Inv(s) && s.status.Running?
    ensures Inv(SkyboxPathMenu(s, index))
  {
  }

  /** A sequence of events, in order. */
  function RunSession(s: Scene, fs: TriangleMesh.FileSystem, shaders: set<string>, cs: seq<Command>): (r: Scene)
    requires Ready(fs) && Inv(s)
    ensures Inv(r)
    ensures 0 <= r.lightingMode < 4
    ensures r.status.Running? ==> Live(r) && r.skybox.Some?
    ensures !s.status.Running? ==> r == s
    decreases |cs|
  {
    if cs == [] then s else RunSession(Apply(s, fs, shaders, cs[0]), fs, shaders, cs[1..])
  }
}
